=== FILE: README.md ===
# varsub: the substitution engine in Dafny

varsub patches values inside a JSON configuration file such as `appsettings.json`.
It loads a document, replaces the value at a dotted key path such as
`ConnectionStrings.Cdn`, and writes the document back out. The engine is the
`Subber` class. This project models that class and proves what it promises.

- `Subber` becomes the class `VarSub.Subber`. It has the two fields of the
  original: `IsLoaded`, and the loaded document (`_jsonDocument`, here
  `document: Option<Token>`). `ReadDocument` and `Sub` are methods that change
  those fields.
- The JSON tree (Newtonsoft's `JToken`) is a value: the datatype `Json.Token`.
  An object is an ordered sequence of named properties. `SelectToken` is
  `Json.Lookup`, and `token.Replace` is `Json.ReplaceAt`, which rebuilds the
  tree with one child slot overwritten.
- `ConvertSimpleTypes` is a pure function. It dispatches on the old node's type
  and tries only that type's parser. When that parser declines, or the type has
  no parser, the result is a string node holding the text verbatim.
- The three parsers are modelled from .NET's behaviour:
  - `int.TryParse` with `NumberStyles.Integer` is `Parsers.ParseInt32`;
  - `bool.TryParse` is `Parsers.ParseBoolean`;
  - `DateTime.TryParseExact` over the ordered table `Formats` is
    `Dates.ParseDateTime`. Each pattern is tokenized from its literal text.
- `double.TryParse` depends on the culture and on floating point. It is a
  parameter, `VarSub.DoubleParser`, supplied when the `Subber` is constructed.

Modules, one per file:

| file | module | content |
|---|---|---|
| options.dfy | Options | `Option` |
| parsers.dfy | Parsers | digits, `int.TryParse`, `bool.TryParse`, and their printers |
| dates.dfy | Dates | the `Formats` table, the pattern tokenizer, `TryParseExact`, a printer for the round trip |
| json.dfy | Json | the token tree, `Lookup`, `ReplaceAt`, and what a replacement changes |
| jsonpath.dfy | JsonPath | dotted paths: `Split`, `Join`, `Segments` |
| varsub.dfy | VarSub | `ConvertSimpleTypes` and the class `Subber` |
| scenarios.dfy | Scenarios | the unit tests' sample document and further typed substitutions |

Two details of .NET's custom-format reader decide which texts the table accepts:

- In .NET custom formats, `zz` is an hours-only offset such as `+02`.
- `zzz` reads one or two hour digits, an optional `:`, and two minute digits.
  So `+0200` is accepted as well as `+02:00`.

## Model

| member | source | states |
|---|---|---|
| VarSub.Subber.constructor | DotNet.VarSub.Core/Subber.cs:21-24 | A new engine has nothing loaded, no document, and satisfies the state invariant. |
| VarSub.Subber.ReadDocument | DotNet.VarSub.Core/Subber.cs:31-48 | A parse that yields a root object installs that tree and sets `IsLoaded`. A parse error, or a root that is not an object, leaves both `IsLoaded` and the previous document exactly as they were. The invariant `IsLoaded <==> document is present` is kept. |
| VarSub.Subber.Sub | DotNet.VarSub.Core/Subber.cs:75-90 | Unloaded: fails with the invalid-operation message and leaves the document alone. Path not found: reports the warning outcome and leaves the document unchanged. Found: the new document is the old one with that slot replaced by the coerced value, and the path reads back that value. Every path that diverges from the target reads as before, and the invariant is kept. |
| VarSub.ConvertSimpleTypes | DotNet.VarSub.Core/Subber.cs:92-128 | The result is a value node. It either has the old node's type or is a string node. A string result holds the new text verbatim. |
| VarSub.ConvertDependsOnlyOnType | DotNet.VarSub.Core/Subber.cs:94 | Two nodes with the same type tag are coerced identically: only the tag is consulted, never the old value. |
| VarSub.ConvertIdempotent | DotNet.VarSub.Core/Subber.cs:92-128 | Substituting the same text again into the node just produced gives the same node. |
| VarSub.IntegerStaysInteger | DotNet.VarSub.Core/Subber.cs:96-101 | An integer slot given any 32-bit number in decimal becomes an integer node with that number. |
| VarSub.IntegerTakesPaddedText | DotNet.VarSub.Core/Subber.cs:96-101 | An integer slot given padded, optionally signed digits whose value fits in 32 bits becomes an integer node with that signed value. |
| VarSub.IntegerFallsBackToString | DotNet.VarSub.Core/Subber.cs:96-127 | An integer slot given text with a character other than digits, signs, number white space or NUL (a letter, a '.') becomes a string node with that text. |
| VarSub.IntegerOutOfRange | DotNet.VarSub.Core/Subber.cs:96-127 | An integer slot given a digit string above Int32.MaxValue becomes a string node, not a wrapped integer and not a float. |
| VarSub.BooleanStaysBoolean | DotNet.VarSub.Core/Subber.cs:110-115 | A boolean slot given "true" or "false" in any letter case, with white space or NUL padding, becomes that boolean. |
| VarSub.BooleanFallsBackToString | DotNet.VarSub.Core/Subber.cs:110-127 | A boolean slot given text whose trimmed form is neither word becomes a string node with that text. |
| VarSub.DateStaysDate | DotNet.VarSub.Core/Subber.cs:117-124 | A date slot given a valid date printed with any of the 18 patterns becomes a date node. The date must fit the pattern's precision and zone designator. The program can still give a string node for offsets beyond ±14 h or for instants out of range after local conversion (see the Dates.ParseDateTime line under "Left out"). |
| VarSub.DateExtendedOffset | DotNet.VarSub.Core/Subber.cs:117-124 | A date slot given `yyyy-MM-ddTHH:mm:ss±hh:mm` text becomes a date node with exactly those fields and, in the model, that offset (see the Dates.ParseDateTime line under "Left out"). |
| VarSub.DateFallsBackToString | DotNet.VarSub.Core/Subber.cs:117-127 | A date slot given text that no pattern of the table accepts becomes a string node with that text. |
| VarSub.FloatFollowsParser | DotNet.VarSub.Core/Subber.cs:103-127 | A float slot becomes a float node with the number the injected double parser reads. When that parser declines, it becomes a string node with the text. |
| VarSub.OtherTypesTakeTextVerbatim | DotNet.VarSub.Core/Subber.cs:125-127 | String, null, object and array slots always become a string node holding the raw text. |
| Parsers.ParseInt32 | DotNet.VarSub.Core/Subber.cs:97 | An accepted number lies within the 32-bit range. |
| Parsers.LayoutOf | DotNet.VarSub.Core/Subber.cs:97 | The text splits, in order, into leading number white space, at most one sign, a run of digits and trailing number white space. Each part is as long as possible: the character after each part cannot extend it. |
| Parsers.ScanInteger | DotNet.VarSub.Core/Subber.cs:97 | An accepted text yields a non-empty run of digits: exactly the digit segment of the text's layout. It is negative only if the text holds a '-'. |
| Parsers.ScanAccepted | DotNet.VarSub.Core/Subber.cs:97 | The converse of ScanPadded. Accepted text is number white space, at most one '+' or '-', a non-empty digit run, number white space and NULs, in that order. It is read as that sign and those digits. |
| Parsers.ParseAccepted | DotNet.VarSub.Core/Subber.cs:97 | The converse of ParsePadded. Text that int.TryParse accepts has that padded form, and the number is the digits' decimal value, negated exactly when the sign is '-'. |
| Parsers.LayoutUnique | DotNet.VarSub.Core/Subber.cs:97 | A text has only one maximal layout of white space, sign, digits and white space, and it is the one LayoutOf finds. |
| Parsers.ScanPadded | DotNet.VarSub.Core/Subber.cs:97 | Leading number white space, an optional '+' or '-', a non-empty digit run, trailing white space and trailing NULs scan as exactly that sign and those digits. |
| Parsers.ParsePadded | DotNet.VarSub.Core/Subber.cs:97 | int.TryParse on such padded text is the 32-bit range check of its signed digit value. |
| Parsers.Int32Of | DotNet.VarSub.Core/Subber.cs:97 | An accepted value lies in the 32-bit range, and its magnitude is the digits' decimal value with the scanned sign. A rejection means the signed value overflows: the digits exceed Int32.MaxValue, or 2147483648 when negative. |
| Parsers.ScanNumeral | DotNet.VarSub.Core/Subber.cs:97 | A digit run, with a '-' in front or no sign at all, is read as exactly that sign and those digits. |
| Parsers.ParseInt32Alphabet | DotNet.VarSub.Core/Subber.cs:97 | Accepted text consists only of digits, signs, number white space and NUL. |
| Parsers.ParseInt32RejectsLarge | DotNet.VarSub.Core/Subber.cs:97 | A digit string above Int32.MaxValue is rejected. |
| Parsers.TenNinesTooLarge | DotNet.VarSub.Core/Subber.cs:97 | "9999999999" is a digit string above Int32.MaxValue. |
| Parsers.ParseFormatInt32 | DotNet.VarSub.Core/Subber.cs:97-100 | Every 32-bit integer, printed in decimal, parses back to itself. |
| Parsers.ParseBoolean | DotNet.VarSub.Core/Subber.cs:111 | Accepted text, trimmed, equals the printed boolean ignoring case. Rejected text, trimmed, equals neither "True" nor "False" ignoring case. |
| Parsers.ParseBooleanIgnoresCase | DotNet.VarSub.Core/Subber.cs:111 | Either word in any letter case is accepted as its boolean. |
| Parsers.ParseBooleanIgnoresPadding | DotNet.VarSub.Core/Subber.cs:111 | Leading and trailing white space and NUL do not change the result. |
| Parsers.ParseFormatBoolean | DotNet.VarSub.Core/Subber.cs:111-114 | "True" and "False" parse back to their booleans. |
| Dates.FormatsShape | DotNet.VarSub.Core/Subber.cs:130-153 | The table holds 18 patterns. The order is precision (seconds, minutes, hours), then layout (basic, extended), then zone (`zzz`, `zz`, `Z`). |
| Dates.TokenizeFormats | DotNet.VarSub.Core/Subber.cs:130-153 | Every pattern of the table reads as exactly the fields and literals of its layout, precision and zone. |
| Dates.Tokenize | DotNet.VarSub.Core/Subber.cs:118-119 | A pattern that reads yields no more tokens than it has characters, and no tokens exactly when the pattern is empty. |
| Dates.SpellTokenize | DotNet.VarSub.Core/Subber.cs:118-119 | Writing out the tokens of a pattern that reads gives the pattern back: the reader drops and invents nothing. |
| Dates.TokenizeSpell | DotNet.VarSub.Core/Subber.cs:118-119 | Tokenizing the spelling of an unambiguous token list gives that list back. |
| Dates.ParseOffsetHoursMinutes | DotNet.VarSub.Core/Subber.cs:118-119 | An accepted `zzz` offset starts with a sign, which is the offset's sign, and ends with the two minute digits, which are its minutes. It consumes at least four characters, hours are below 100 and minutes below 60. The full shape of accepted text is Dates.OffsetAccepted. |
| Dates.ParseOffsetForms | DotNet.VarSub.Core/Subber.cs:118-119 | A sign, one or two hour digits, an optional ':' (required after one hour digit) and two minute digits below 60 read as exactly that offset, and the text after them is left unread. |
| Dates.OffsetAccepted | DotNet.VarSub.Core/Subber.cs:118-119 | The converse of ParseOffsetForms. An accepted `zzz` offset is a sign, one or two hour digits, an optional ':' (required after one hour digit) and two minute digits below 60. The offset read is exactly that sign, those hours and those minutes. |
| Dates.OffsetSpellings | DotNet.VarSub.Core/Subber.cs:118-119 | "+0200" and "+2:00" read as two hours; "+230" is rejected. |
| Dates.ParseToken | DotNet.VarSub.Core/Subber.cs:118-119 | An accepted field consumes at least one character and no more than the text holds, and keeps the zone valid. |
| Dates.ParseTokens | DotNet.VarSub.Core/Subber.cs:118-119 | Reading fields keeps the zone valid. |
| Dates.ParseExact | DotNet.VarSub.Core/Subber.cs:118-119 | A date accepted by one pattern is a real calendar date with a valid zone. |
| Dates.FirstMatch | DotNet.VarSub.Core/Subber.cs:118-119 | The result is that of the first pattern in table order that accepts the text. It is absent exactly when no pattern accepts it. |
| Dates.ParseDateTime | DotNet.VarSub.Core/Subber.cs:118-119 | An accepted date is a real calendar date with a valid zone. |
| Dates.FormatsRoundTrip | DotNet.VarSub.Core/Subber.cs:117-124 | A valid date printed with pattern k parses back to itself under pattern k, and the whole table accepts it. |
| Dates.ParseExactPrinted | DotNet.VarSub.Core/Subber.cs:118-119 | The converse of FormatsRoundTrip for the `zz` and `Z` patterns: text such a pattern accepts is exactly that pattern's print of the date read. |
| Dates.ParseTokensPrinted | DotNet.VarSub.Core/Subber.cs:118-119 | Tokens that record each field at most once and hold no `zzz` offset accept only the text they print for the value read. |
| Dates.PatternFieldsOnce | DotNet.VarSub.Core/Subber.cs:130-153 | Every pattern of the table records each field once. Only the `zzz` patterns hold a `zzz` offset. |
| Dates.YearFirst | DotNet.VarSub.Core/Subber.cs:130-153 | Every pattern starts with `yyyy`, so text that does not start with four digits is rejected by every pattern. |
| Dates.BasicRejectsExtended | DotNet.VarSub.Core/Subber.cs:132-134 | A basic-layout pattern rejects text with a '-' after the year. |
| Dates.FirstMatchAt | DotNet.VarSub.Core/Subber.cs:118-119 | If pattern k accepts and every earlier pattern rejects, the table's answer is pattern k's. |
| Dates.ParseDateTimeExtendedOffset | DotNet.VarSub.Core/Subber.cs:136 | Text printed as `yyyy-MM-ddTHH:mm:sszzz` is read by the table as exactly that date; the basic patterns before it do not claim it. |
| Dates.FormatExtendedOffset | DotNet.VarSub.Core/Subber.cs:136 | The `yyyy-MM-ddTHH:mm:sszzz` pattern prints the fields zero-padded, with '-', 'T' and ':' separators and a `±hh:mm` offset. |
| Json.IndexOf | DotNet.VarSub.Core/Subber.cs:79 | The result is the position of the first property with that name; absent exactly when no property has the name. |
| Json.Lookup | DotNet.VarSub.Core/Subber.cs:79 | A non-empty path finds something only in an object that has a property named by its first segment. |
| Json.LookupAppend | DotNet.VarSub.Core/Subber.cs:79 | Looking up a concatenated path is looking up its front, then the rest from the node found. |
| Json.ReplaceAt | DotNet.VarSub.Core/Subber.cs:84 | A replacement below the root keeps the root's type. Under an object it keeps the property names and their order. |
| Json.LookupReplaceAt | DotNet.VarSub.Core/Subber.cs:84 | After a replacement at a path that exists, the path reads back the new node. |
| Json.ReplaceAtNotFound | DotNet.VarSub.Core/Subber.cs:79-89 | A replacement at a path that does not exist changes nothing. |
| Json.LookupReplaceAtElsewhere | DotNet.VarSub.Core/Subber.cs:84 | A replacement leaves every diverging path (siblings, cousins) reading as before. |
| Json.LookupReplaceAtBelow | DotNet.VarSub.Core/Subber.cs:84 | Below the replaced path, the tree reads as the new node does. |
| Json.ReplaceAtAlong | DotNet.VarSub.Core/Subber.cs:84 | Each object on the way to the target changes in exactly one slot: the same name at the same position. Key order is kept. |
| Json.ReplaceAtTwice | DotNet.VarSub.Core/Subber.cs:84 | Replacing twice at a path is the same as replacing once with the second value. |
| Json.ReplaceAtWellFormed | DotNet.VarSub.Core/Subber.cs:84 | A replacement keeps property names distinct in every object. |
| JsonPath.SplitJoin | DotNet.VarSub.Core/Subber.cs:79 | Joining names free of '.' and splitting again gives the names back. |
| JsonPath.JoinSplit | DotNet.VarSub.Core/Subber.cs:79 | Splitting a path at '.' and joining gives the path back. |
| JsonPath.Segments | DotNet.VarSub.Core/Subber.cs:79 | The segments of a dotted path join back to the path and are each a plain member name. |
| Scenarios.SampleWellFormed | DotNet.VarSub.Core.Tests/SubberTests.cs:28-37 | The sample document has distinct member names at every level, whatever Cdn holds. |
| Scenarios.CdnSegments | DotNet.VarSub.Core.Tests/SubberTests.cs:86 | "ConnectionStrings.Cdn" is a dotted path through ConnectionStrings and then Cdn. |
| Scenarios.CdnSubstitution | DotNet.VarSub.Core.Tests/SubberTests.cs:86-92 | Replacing at ConnectionStrings.Cdn gives the sample with only Cdn changed, and Cdn reads back the new node. |
| Scenarios.SubberLoadsJson | DotNet.VarSub.Core.Tests/SubberTests.cs:62-74 | Loading the sample sets `IsLoaded`. |
| Scenarios.SubstitutionHappens | DotNet.VarSub.Core.Tests/SubberTests.cs:76-93 | Substituting "test.cdn.com" at ConnectionStrings.Cdn succeeds. The document becomes the sample with Cdn = "test.cdn.com"; ApplicationDb, ServiceBus and Environment are unchanged. |
| Scenarios.SubTopLevel | DotNet.VarSub.Core/Subber.cs:79-84 | A one-segment path replaces a top-level member. |
| Scenarios.SubMissing | DotNet.VarSub.Core/Subber.cs:86-89 | A missing member gives the warning outcome, and the document stays as loaded. |
| Scenarios.SubBeforeLoad | DotNet.VarSub.Core/Subber.cs:77 | Sub before any load fails with the invalid-operation message, and nothing is loaded afterwards. |
| Scenarios.PortTakesInteger | DotNet.VarSub.Core/Subber.cs:96-101 | Port 1234 given "5678" becomes the integer 5678. |
| Scenarios.PortTakesPaddedInteger | DotNet.VarSub.Core/Subber.cs:96-101 | Port 1234 given " -42", a tab and a NUL becomes the integer -42. |
| Scenarios.PortFallsBackToString | DotNet.VarSub.Core/Subber.cs:127 | Port 1234 given "abc" becomes the string "abc". |
| Scenarios.PortRejectsFractionAndOverflow | DotNet.VarSub.Core/Subber.cs:96-127 | Port 1234 given "1.5" or "9999999999" becomes a string node. |
| Scenarios.FlagScenarios | DotNet.VarSub.Core/Subber.cs:110-127 | A boolean slot given " TRUE " becomes true; given "yes" it becomes the string "yes". |
| Scenarios.ScenarioText | DotNet.VarSub.Core/Subber.cs:136 | 15 June 2021 08:30:00 at UTC+02:00 prints as "2021-06-15T08:30:00+02:00" with the extended `zzz` pattern. |
| Scenarios.DateTakesOffsetTimestamp | DotNet.VarSub.Core/Subber.cs:117-124 | A date slot given "2021-06-15T08:30:00+02:00" becomes a date node for that moment. In the model the +02:00 offset is kept (see the Dates.ParseDateTime line under "Left out"). |
| Scenarios.DateFallsBackOnWord | DotNet.VarSub.Core/Subber.cs:117-127 | A date slot given "tomorrow" becomes the string "tomorrow". |
| Scenarios.SubPort | DotNet.VarSub.Core/Subber.cs:75-90 | Sub at "Port" in a document with port 1234 succeeds, and the document holds the coerced value. |
| Scenarios.PortScenarios | DotNet.VarSub.Core/Subber.cs:96-127 | Through Sub, "5678" gives `"Port": 5678` and "abc" gives `"Port": "abc"`. |

## Left out

- `WriteDocument` (DotNet.VarSub.Core/Subber.cs:55-68) and Newtonsoft's indented serializer: output formatting is library behaviour. The model's document is the tree that would be written.
- Stream reading and UTF-8 decoding in `ReadDocument`, async/await, and `JObject.Parse`: these are foreign library calls. `ReadDocument` takes the parse result (a tree or an error) as its argument.
- Logging: every logger call is dropped. So is the possibility of a logger throwing between the assignments of lines 38 and 40.
- `CurrentDocument` (lines 159-163): the `dynamic` accessor is replaced by reading the `document` field with `Json.Lookup`.
- DotNet.VarSub.Console/Program.cs is not part of this model: it holds command-line binding and file handling only.
- `double.TryParse` and Float payloads: floating point depends on the culture. The parser is the injected `DoubleParser`, and a Float payload is an opaque 64-bit pattern.
- The full JSONPath grammar of `SelectToken` (brackets, wildcards, filters, quoted names): only dotted paths of plain member names are modelled.
- VarSub.Subber.Sub: requires a dotted path of plain member names. So an empty path, a root replacement and other JSONPath forms cannot be passed. A segment that is a lone "$" or "@" (the root and current-node markers) or "*" (the wildcard) is not a plain name, nor is one holding '.', a bracket, a parenthesis or a blank. A name that merely contains '$' or '@', such as "$schema", is plain.
- Dates.ParseDateTime: does not model these details of .NET's `TryParseExact`:
  - `Z` is accepted only as the letter 'Z'; .NET is more lenient.
  - The offset hours are not bounded at 14.
  - The parsed time is not converted to local time, and the resulting instant is not checked against DateTime's range. The program's node holds a machine-local DateTime and keeps no offset. The model's node keeps the parsed fields and offset.
- Dates.ParseExact: the converse of the round trip (accepted text is printed text) is proved only for the `zz` and `Z` patterns (Dates.ParseExactPrinted). A `zzz` pattern also accepts spellings its printer never writes, such as "+0200" and "+2:00" for "+02:00". So printing back is not the identity there; what a `zzz` offset accepts is stated by Dates.OffsetAccepted.
- Parsers.ParseInt32: the culture's sign strings (`NumberFormatInfo.PositiveSign` and `NegativeSign`, which may be, for example, U+2212) are fixed as '+' and '-'.
- Dates.ParseToken: fields are read as exactly their digit count (four for the year, two for the others). The invariant culture's sign strings are assumed to be '+' and '-'.
- Json.Token: the Integer payload is an unbounded integer. A loaded document may hold any integer, since Newtonsoft reads large numbers as Int64 or BigInteger; `ReadDocument` accepts them all. Only `Sub` writes integers, and those are 32-bit, because `int.TryParse` bounds them. Int64 and BigInteger are not told apart. Raw, Bytes, Guid, Uri, TimeSpan, Undefined, Comment and Constructor tokens are not modelled.
- Duplicate member names in the input: Newtonsoft's loader keeps one property per name. By default the last value wins, in the first property's position. The model does not parse, so it takes the resulting tree, whose names are distinct (`Json.WellFormed`).

=== FILE: dates.dfy ===
/**
 * The date branch of ConvertSimpleTypes: the fixed, ordered table of ISO 8601
 * patterns (Subber.Formats) and a model of DateTime.TryParseExact over it with
 * the invariant culture and DateTimeStyles.None.
 *
 * A pattern string is read the way .NET reads a custom format: runs of one
 * specifier letter form one field ("yyyy", "MM", "zzz"), every other character
 * must appear literally. The parsed value keeps the fields and the zone as
 * written; .NET's conversion of an offset time to the machine's local time is
 * not part of this model.
 */
module Dates {
  import opened Options
  import opened Parsers

  datatype Sign = Plus | Minus

  /** The time zone designator of a parsed value: none, "Z", or a signed offset. */
  datatype Zone = Unspecified | Utc | Offset(sign: Sign, hours: nat, minutes: nat)

  datatype DateTime = DateTime(year: nat, month: nat, day: nat, hour: nat, minute: nat, second: nat, zone: Zone)

  /** Subber.Formats, in its order. */
  const Formats: seq<string> := [
    // Basic formats
    "yyyyMMddTHHmmsszzz",
    "yyyyMMddTHHmmsszz",
    "yyyyMMddTHHmmssZ",
    // Extended formats
    "yyyy-MM-ddTHH:mm:sszzz",
    "yyyy-MM-ddTHH:mm:sszz",
    "yyyy-MM-ddTHH:mm:ssZ",
    // Reduced to minutes
    "yyyyMMddTHHmmzzz",
    "yyyyMMddTHHmmzz",
    "yyyyMMddTHHmmZ",
    "yyyy-MM-ddTHH:mmzzz",
    "yyyy-MM-ddTHH:mmzz",
    "yyyy-MM-ddTHH:mmZ",
    // Reduced to hours
    "yyyyMMddTHHzzz",
    "yyyyMMddTHHzz",
    "yyyyMMddTHHZ",
    "yyyy-MM-ddTHHzzz",
    "yyyy-MM-ddTHHzz",
    "yyyy-MM-ddTHHZ"
  ]

  // ---------------------------------------------------------------------------
  // Reading a pattern
  // ---------------------------------------------------------------------------

  /** One field or literal of a pattern. */
  datatype Token =
    | Year4               // yyyy
    | Month2              // MM
    | Day2                // dd
    | Hour2               // HH
    | Minute2             // mm
    | Second2             // ss
    | OffsetHoursMinutes  // zzz
    | OffsetHours         // zz
    | UtcDesignator       // Z
    | Literal(c: char)    // anything else, including the time separator ':'

  /** Characters that start a field in a .NET custom date and time format. */
  predicate IsSpecifier(c: char)
  {
    c in "dfFghHKmMstyz/\"'%\\"
  }

  /** How many times the first character of f repeats at its front. */
  function RepeatCount(f: string): (n: nat)
    requires f != []
    ensures 1 <= n <= |f|
  {
    if |f| > 1 && f[1] == f[0] then 1 + RepeatCount(f[1..]) else 1
  }

  /** The field that a run of n specifier letters c stands for; None for the runs this model does not cover. */
  function SpecifierToken(c: char, n: nat): Option<Token>
  {
    if c == 'y' && n == 4 then Some(Year4)
    else if c == 'M' && n == 2 then Some(Month2)
    else if c == 'd' && n == 2 then Some(Day2)
    else if c == 'H' && n == 2 then Some(Hour2)
    else if c == 'm' && n == 2 then Some(Minute2)
    else if c == 's' && n == 2 then Some(Second2)
    else if c == 'z' && n == 3 then Some(OffsetHoursMinutes)
    else if c == 'z' && n == 2 then Some(OffsetHours)
    else None
  }

  function Prepend(t: Token, rest: Option<seq<Token>>): Option<seq<Token>>
  {
    match rest
    case None => None
    case Some(ts) => Some([t] + ts)
  }

  /** Splits a pattern into its fields and literals. */
  function Tokenize(f: string): (r: Option<seq<Token>>)
    ensures r.Some? ==> |r.value| <= |f| && (r.value == [] <==> f == [])
    decreases |f|
  {
    if f == [] then Some([])
    else if f[0] == 'Z' then Prepend(UtcDesignator, Tokenize(f[1..]))
    else if f[0] == ':' then Prepend(Literal(':'), Tokenize(f[1..]))
    else if IsSpecifier(f[0]) then
      var n := RepeatCount(f);
      match SpecifierToken(f[0], n)
      case None => None
      case Some(t) => Prepend(t, Tokenize(f[n..]))
    else Prepend(Literal(f[0]), Tokenize(f[1..]))
  }

  /** The pattern text of one token. */
  function Spelling(t: Token): (f: string)
    ensures f != []
  {
    match t
    case Year4 => "yyyy"
    case Month2 => "MM"
    case Day2 => "dd"
    case Hour2 => "HH"
    case Minute2 => "mm"
    case Second2 => "ss"
    case OffsetHoursMinutes => "zzz"
    case OffsetHours => "zz"
    case UtcDesignator => "Z"
    case Literal(c) => [c]
  }

  function Spell(ts: seq<Token>): string
  {
    if ts == [] then [] else Spelling(ts[0]) + Spell(ts[1..])
  }

  /** A token whose spelling is a run of one specifier letter, read by its length. */
  predicate IsField(t: Token) { !t.Literal? && !t.UtcDesignator? }

  /**
   * Tokens that Spell writes unambiguously: literals are not specifier letters,
   * and no field is followed by a token starting with the same letter.
   */
  predicate Unambiguous(ts: seq<Token>)
  {
    (forall i :: 0 <= i < |ts| && ts[i].Literal? ==> ts[i].c == ':' || (ts[i].c != 'Z' && !IsSpecifier(ts[i].c)))
    && (forall i :: 0 <= i < |ts| - 1 && IsField(ts[i]) ==> Spelling(ts[i + 1])[0] != Spelling(ts[i])[0])
  }

  lemma {:induction false} RepeatCountRun(f: string, rest: string)
    requires f != [] && forall i :: 0 <= i < |f| ==> f[i] == f[0]
    requires rest != [] ==> rest[0] != f[0]
    ensures RepeatCount(f + rest) == |f|
  {
    if |f| > 1 {
      assert (f + rest)[1..] == f[1..] + rest;
      RepeatCountRun(f[1..], rest);
    }
  }

  /** The first token of a spelled pattern is read back, and reading goes on right after it. */
  lemma TokenizeHead(t: Token, rest: string)
    requires t.Literal? ==> t.c == ':' || (t.c != 'Z' && !IsSpecifier(t.c))
    requires IsField(t) && rest != [] ==> rest[0] != Spelling(t)[0]
    ensures Tokenize(Spelling(t) + rest) == Prepend(t, Tokenize(rest))
  {
    var f := Spelling(t) + rest;
    assert f[0] == Spelling(t)[0];
    if IsField(t) {
      FieldSpelling(t);
      RepeatCountRun(Spelling(t), rest);
      assert f[|Spelling(t)|..] == rest;
    } else {
      assert f[1..] == rest;
    }
  }

  /** A field is spelled as a run of one specifier letter that reads back as that field. */
  lemma FieldSpelling(t: Token)
    requires IsField(t)
    ensures var f := Spelling(t);
            IsSpecifier(f[0]) && f[0] != 'Z' && f[0] != ':'
            && (forall i :: 0 <= i < |f| ==> f[i] == f[0])
            && SpecifierToken(f[0], |f|) == Some(t)
  {
    match t
    case Year4 => RunSpelling("yyyy", Year4);
    case Month2 => RunSpelling("MM", Month2);
    case Day2 => RunSpelling("dd", Day2);
    case Hour2 => RunSpelling("HH", Hour2);
    case Minute2 => RunSpelling("mm", Minute2);
    case Second2 => RunSpelling("ss", Second2);
    case OffsetHoursMinutes => RunSpelling("zzz", OffsetHoursMinutes);
    case OffsetHours => RunSpelling("zz", OffsetHours);
  }

  lemma RunSpelling(f: string, t: Token)
    requires 2 <= |f| <= 4 && f[0] in "yMdHmsz" && SpecifierToken(f[0], |f|) == Some(t)
    requires forall i :: 0 <= i < |f| ==> f[i] == f[0]
    ensures IsSpecifier(f[0]) && f[0] != 'Z' && f[0] != ':'
  {
  }

  lemma SpellCons(ts: seq<Token>)
    requires ts != []
    ensures Spell(ts) == Spelling(ts[0]) + Spell(ts[1..])
  {
  }

  lemma UnambiguousTail(ts: seq<Token>)
    requires ts != [] && Unambiguous(ts)
    ensures Unambiguous(ts[1..])
  {
    forall i | 0 <= i < |ts[1..]| - 1 && IsField(ts[1..][i])
      ensures Spelling(ts[1..][i + 1])[0] != Spelling(ts[1..][i])[0]
    {
      assert ts[1..][i] == ts[i + 1] && ts[1..][i + 1] == ts[i + 2];
    }
  }

  /** Reading a pattern undoes writing it: Tokenize is the inverse of Spell on unambiguous token lists. */
  lemma {:induction false} TokenizeSpell(ts: seq<Token>)
    requires Unambiguous(ts)
    ensures Tokenize(Spell(ts)) == Some(ts)
  {
    if ts != [] {
      var rest := Spell(ts[1..]);
      UnambiguousTail(ts);
      TokenizeSpell(ts[1..]);
      if rest != [] {
        SpellCons(ts[1..]);
        assert rest[0] == Spelling(ts[1])[0];
      }
      TokenizeHead(ts[0], rest);
      assert [ts[0]] + ts[1..] == ts;
    }
  }

  /** Writing out what Tokenize read gives back the pattern: the reader drops and invents nothing. */
  lemma {:induction false} SpellTokenize(f: string)
    requires Tokenize(f).Some?
    ensures Spell(Tokenize(f).value) == f
    decreases |f|
  {
    if f != [] {
      var field := f[0] != 'Z' && f[0] != ':' && IsSpecifier(f[0]);
      var n := if field then RepeatCount(f) else 1;
      var t := if f[0] == 'Z' then UtcDesignator
               else if f[0] == ':' then Literal(':')
               else if field then SpecifierToken(f[0], n).value
               else Literal(f[0]);
      assert Tokenize(f) == Prepend(t, Tokenize(f[n..]));
      SpellTokenize(f[n..]);
      assert Spelling(t) == f[..n] by {
        if field {
          RepeatCountUniform(f);
          TokenRun(f[0], n, t);
          assert forall i :: 0 <= i < n ==> Spelling(t)[i] == f[..n][i];
        }
      }
      SpellPrepend(t, Tokenize(f[n..]).value, f, n);
    }
  }

  lemma SpellPrepend(t: Token, ts: seq<Token>, f: string, n: nat)
    requires n <= |f| && Spelling(t) == f[..n] && Spell(ts) == f[n..]
    ensures Spell([t] + ts) == f
  {
    SpellCons([t] + ts);
    assert ([t] + ts)[1..] == ts;
    assert f[..n] + f[n..] == f;
  }

  lemma {:induction false} RepeatCountUniform(f: string)
    requires f != []
    ensures forall i :: 0 <= i < RepeatCount(f) ==> f[i] == f[0]
    decreases |f|
  {
    if |f| > 1 && f[1] == f[0] {
      RepeatCountUniform(f[1..]);
      assert forall i :: 1 <= i < RepeatCount(f) ==> f[i] == f[1..][i - 1];
    }
  }

  /** The field a run of n letters c stands for is spelled as exactly that run. */
  lemma TokenRun(c: char, n: nat, t: Token)
    requires SpecifierToken(c, n) == Some(t)
    ensures |Spelling(t)| == n && forall i :: 0 <= i < n ==> Spelling(t)[i] == c
  {
  }

  // ---------------------------------------------------------------------------
  // The shape of the table
  // ---------------------------------------------------------------------------

  datatype Layout = Basic | Extended
  datatype Precision = Seconds | Minutes | Hours
  datatype ZoneStyle = OffsetWithMinutes | OffsetHoursOnly | Zulu

  function DateTokens(layout: Layout): seq<Token>
  {
    if layout == Basic then [Year4, Month2, Day2] else [Year4, Literal('-'), Month2, Literal('-'), Day2]
  }

  function TimeTokens(layout: Layout, precision: Precision): seq<Token>
  {
    match precision
    case Seconds => if layout == Basic then [Hour2, Minute2, Second2]
                    else [Hour2, Literal(':'), Minute2, Literal(':'), Second2]
    case Minutes => if layout == Basic then [Hour2, Minute2] else [Hour2, Literal(':'), Minute2]
    case Hours => [Hour2]
  }

  function ZoneToken(zone: ZoneStyle): Token
  {
    match zone
    case OffsetWithMinutes => OffsetHoursMinutes
    case OffsetHoursOnly => OffsetHours
    case Zulu => UtcDesignator
  }

  /** The fields and literals of the pattern for one choice of layout, precision and zone designator. */
  function PatternTokens(layout: Layout, precision: Precision, zone: ZoneStyle): seq<Token>
  {
    DateTokens(layout) + [Literal('T')] + TimeTokens(layout, precision) + [ZoneToken(zone)]
  }

  /** The pattern text for one choice of layout, precision and zone designator. */
  function Pattern(layout: Layout, precision: Precision, zone: ZoneStyle): string
  {
    var date := if layout == Basic then "yyyyMMdd" else "yyyy-MM-dd";
    var time := match precision
      case Seconds => if layout == Basic then "HHmmss" else "HH:mm:ss"
      case Minutes => if layout == Basic then "HHmm" else "HH:mm"
      case Hours => "HH";
    var designator := match zone
      case OffsetWithMinutes => "zzz"
      case OffsetHoursOnly => "zz"
      case Zulu => "Z";
    date + "T" + time + designator
  }

  lemma {:induction false} SpellAppend(a: seq<Token>, b: seq<Token>)
    ensures Spell(a + b) == Spell(a) + Spell(b)
  {
    if a != [] {
      assert (a + b)[0] == a[0] && (a + b)[1..] == a[1..] + b;
      SpellAppend(a[1..], b);
    } else {
      assert a + b == b;
    }
  }

  lemma SpellOne(t: Token)
    ensures Spell([t]) == Spelling(t)
  {
    assert [t][1..] == [];
  }

  lemma SpellDate(layout: Layout)
    ensures Spell(DateTokens(layout)) == if layout == Basic then "yyyyMMdd" else "yyyy-MM-dd"
  {
    var d := DateTokens(layout);
    SpellCons(d);
    SpellCons(d[1..]);
    SpellCons(d[2..]);
    assert d[1..][1..] == d[2..];
    if layout == Extended {
      SpellCons(d[3..]);
      SpellCons(d[4..]);
      assert d[2..][1..] == d[3..] && d[3..][1..] == d[4..];
      assert d[4..][1..] == [];
    } else {
      assert d[2..][1..] == [];
    }
  }

  lemma SpellTime(layout: Layout, precision: Precision)
    ensures Spell(TimeTokens(layout, precision)) == match precision
      case Seconds => if layout == Basic then "HHmmss" else "HH:mm:ss"
      case Minutes => if layout == Basic then "HHmm" else "HH:mm"
      case Hours => "HH"
  {
    var t := TimeTokens(layout, precision);
    SpellCons(t);
    if |t| > 1 {
      SpellCons(t[1..]);
      assert t[1..][1..] == t[2..];
      if |t| > 2 {
        SpellCons(t[2..]);
        assert t[2..][1..] == t[3..];
        if |t| > 3 {
          SpellCons(t[3..]);
          SpellCons(t[4..]);
          assert t[3..][1..] == t[4..];
          assert t[4..][1..] == [];
        } else {
          assert t[3..] == [];
        }
      } else {
        assert t[2..] == [];
      }
    } else {
      assert t[1..] == [];
    }
  }

  lemma SpellPattern(layout: Layout, precision: Precision, zone: ZoneStyle)
    ensures Spell(PatternTokens(layout, precision, zone)) == Pattern(layout, precision, zone)
  {
    var d, t := DateTokens(layout), TimeTokens(layout, precision);
    SpellDate(layout);
    SpellTime(layout, precision);
    SpellOne(Literal('T'));
    SpellOne(ZoneToken(zone));
    SpellAppend(d + [Literal('T')] + t, [ZoneToken(zone)]);
    SpellAppend(d + [Literal('T')], t);
    SpellAppend(d, [Literal('T')]);
  }

  function PrecisionAt(k: nat): Precision
  {
    if k < 6 then Seconds else if k < 12 then Minutes else Hours
  }

  function LayoutAt(k: nat): Layout
  {
    if k % 6 < 3 then Basic else Extended
  }

  function ZoneAt(k: nat): ZoneStyle
  {
    if k % 3 == 0 then OffsetWithMinutes else if k % 3 == 1 then OffsetHoursOnly else Zulu
  }

  /**
   * The table holds 18 patterns: precision outermost (seconds, minutes, hours),
   * then layout (basic, extended), then zone designator (zzz, zz, Z).
   */
  lemma FormatsWithSeconds()
    ensures |Formats| == 18
    ensures forall k :: 0 <= k < 6 ==> Formats[k] == Pattern(LayoutAt(k), Seconds, ZoneAt(k))
  {
  }

  lemma FormatsWithMinutes()
    ensures |Formats| == 18
    ensures forall k :: 6 <= k < 12 ==> Formats[k] == Pattern(LayoutAt(k), Minutes, ZoneAt(k))
  {
  }

  lemma FormatsWithHours()
    ensures |Formats| == 18
    ensures forall k :: 12 <= k < 18 ==> Formats[k] == Pattern(LayoutAt(k), Hours, ZoneAt(k))
  {
  }

  lemma FormatsShape()
    ensures |Formats| == 18
    ensures forall k :: 0 <= k < 18 ==> Formats[k] == Pattern(LayoutAt(k), PrecisionAt(k), ZoneAt(k))
  {
    FormatsWithSeconds();
    FormatsWithMinutes();
    FormatsWithHours();
  }

  lemma UnambiguousAppend(a: seq<Token>, b: seq<Token>)
    requires Unambiguous(a) && Unambiguous(b)
    requires a != [] && b != [] && IsField(a[|a| - 1]) ==> Spelling(b[0])[0] != Spelling(a[|a| - 1])[0]
    ensures Unambiguous(a + b)
  {
    var ab := a + b;
    forall i | 0 <= i < |ab| && ab[i].Literal?
      ensures ab[i].c == ':' || (ab[i].c != 'Z' && !IsSpecifier(ab[i].c))
    {
      if i < |a| {
        assert ab[i] == a[i];
      } else {
        assert ab[i] == b[i - |a|];
      }
    }
    forall i | 0 <= i < |ab| - 1 && IsField(ab[i])
      ensures Spelling(ab[i + 1])[0] != Spelling(ab[i])[0]
    {
      if i + 1 < |a| {
        assert ab[i] == a[i] && ab[i + 1] == a[i + 1];
      } else if i + 1 == |a| {
        assert ab[i] == a[|a| - 1] && ab[i + 1] == b[0];
      } else {
        assert ab[i] == b[i - |a|] && ab[i + 1] == b[i - |a| + 1];
      }
    }
  }

  lemma SeparatorsAreLiterals()
    ensures !IsSpecifier('-') && !IsSpecifier('T') && !IsSpecifier(':')
  {
  }

  lemma DateTimeUnambiguous(layout: Layout, precision: Precision)
    ensures Unambiguous(DateTokens(layout)) && Unambiguous(TimeTokens(layout, precision))
  {
    SeparatorsAreLiterals();
    if layout == Basic {
      assert Unambiguous(DateTokens(Basic));
    } else {
      assert Unambiguous(DateTokens(Extended));
    }
    match precision {
      case Seconds => assert Unambiguous(TimeTokens(layout, Seconds));
      case Minutes => assert Unambiguous(TimeTokens(layout, Minutes));
      case Hours => assert Unambiguous(TimeTokens(layout, Hours));
    }
  }

  lemma PatternUnambiguous(layout: Layout, precision: Precision, zone: ZoneStyle)
    ensures Unambiguous(PatternTokens(layout, precision, zone))
  {
    var date, time := DateTokens(layout), TimeTokens(layout, precision);
    var z := ZoneToken(zone);
    DateTimeUnambiguous(layout, precision);
    assert Unambiguous([Literal('T')]);
    assert Unambiguous([z]);
    UnambiguousAppend(date, [Literal('T')]);
    UnambiguousAppend(date + [Literal('T')], time);
    assert time[|time| - 1] in {Hour2, Minute2, Second2};
    UnambiguousAppend(date + [Literal('T')] + time, [z]);
  }

  /** Each pattern of the table is read as exactly the fields its layout, precision and zone call for. */
  lemma TokenizeFormats(k: nat)
    requires k < |Formats|
    ensures Tokenize(Formats[k]) == Some(PatternTokens(LayoutAt(k), PrecisionAt(k), ZoneAt(k)))
  {
    FormatsShape();
    SpellPattern(LayoutAt(k), PrecisionAt(k), ZoneAt(k));
    PatternUnambiguous(LayoutAt(k), PrecisionAt(k), ZoneAt(k));
    TokenizeSpell(PatternTokens(LayoutAt(k), PrecisionAt(k), ZoneAt(k)));
  }

  // ---------------------------------------------------------------------------
  // DateTime.TryParseExact(s, Formats, InvariantCulture, DateTimeStyles.None)
  // ---------------------------------------------------------------------------

  /** The value a parse starts from: no field read yet, no zone. */
  const Unset := DateTime(0, 0, 0, 0, 0, 0, Unspecified)

  predicate IsLeapYear(y: nat) { y % 4 == 0 && (y % 100 != 0 || y % 400 == 0) }

  function DaysInMonth(y: nat, m: nat): nat
    requires 1 <= m <= 12
  {
    if m == 2 then (if IsLeapYear(y) then 29 else 28)
    else if m == 4 || m == 6 || m == 9 || m == 11 then 30
    else 31
  }

  /** The checks .NET makes once all fields are read: a Gregorian date in years 1..9999 and a time of day. */
  predicate ValidCalendar(d: DateTime)
  {
    1 <= d.year <= 9999 && 1 <= d.month <= 12 && 1 <= d.day <= DaysInMonth(d.year, d.month)
    && d.hour < 24 && d.minute < 60 && d.second < 60
  }

  /** An offset has at most two hour digits and fewer than 60 minutes. */
  predicate ValidZone(z: Zone)
  {
    z.Offset? ==> z.hours < 100 && z.minutes < 60
  }

  /** What a successful TryParseExact can produce. */
  predicate ValidDateTime(d: DateTime) { ValidCalendar(d) && ValidZone(d.zone) }

  predicate IsSign(c: char) { c == '+' || c == '-' }

  function SignOf(c: char): Sign { if c == '-' then Minus else Plus }

  /** Exactly w digits at the front of s. */
  predicate DigitsAt(s: string, w: nat) { w <= |s| && AllDigits(s[..w]) }

  /**
   * A "zzz" offset: a sign, one or two hour digits (two when two are there),
   * an optional ':', then exactly two minute digits below 60.
   * Returns the zone and the number of characters read.
   */
  function ParseOffsetHoursMinutes(s: string): (r: Option<(Zone, nat)>)
    ensures r.Some? ==> 0 < r.value.1 <= |s| && ValidZone(r.value.0) && r.value.0.Offset?
    ensures r.Some? ==> IsSign(s[0]) && r.value.0.sign == SignOf(s[0])
    ensures r.Some? ==> 4 <= r.value.1 && AllDigits(s[r.value.1 - 2..r.value.1])
                        && r.value.0.minutes == DigitsValue(s[r.value.1 - 2..r.value.1])
  {
    if s == [] || !IsSign(s[0]) then None
    else
      var h := if |s| >= 3 && IsDigit(s[1]) && IsDigit(s[2]) then 2
               else if |s| >= 2 && IsDigit(s[1]) then 1
               else 0;
      if h == 0 then None
      else
        var i := 1 + h;
        var j := if i < |s| && s[i] == ':' then i + 1 else i;
        if DigitsAt(s[j..], 2) then
          assert s[j..][..2] == s[j..j + 2];
          var hours := DigitsValue(s[1..i]);
          var minutes := DigitsValue(s[j..j + 2]);
          assert hours < 100 by { TwoDigitsBound(s[1..i]); }
          if minutes < 60 then Some((Offset(SignOf(s[0]), hours, minutes), j + 2)) else None
        else None
  }

  /**
   * The forms a "zzz" offset takes: a sign, one or two hour digits, an optional
   * ':' (required after a single hour digit), two minute digits below 60, so
   * "+02:00", "+0200" and "+2:00" all read as two hours; whatever follows is left unread.
   */
  lemma ParseOffsetForms(sg: char, hh: string, colon: string, mm: string, rest: string)
    requires IsSign(sg)
    requires 1 <= |hh| <= 2 && AllDigits(hh)
    requires colon == "" || colon == ":"
    requires |hh| == 2 || colon == ":"
    requires |mm| == 2 && AllDigits(mm) && DigitsValue(mm) < 60
    ensures ParseOffsetHoursMinutes([sg] + hh + colon + mm + rest)
            == Some((Offset(SignOf(sg), DigitsValue(hh), DigitsValue(mm)), 1 + |hh| + |colon| + 2))
  {
    var s := [sg] + hh + colon + mm + rest;
    var i := 1 + |hh|;
    var j := i + |colon|;
    OffsetFormParts(sg, hh, colon, mm, rest);
    assert s[j..][..2] == mm;
  }

  /**
   * The converse of ParseOffsetForms: an accepted "zzz" offset is a sign, one
   * or two hour digits, an optional ':' (required after one hour digit) and
   * two minute digits below 60, and it reads as exactly that offset.
   */
  lemma OffsetAccepted(s: string)
    requires ParseOffsetHoursMinutes(s).Some?
    ensures var n := ParseOffsetHoursMinutes(s).value.1;
            var c := if s[n - 3] == ':' then 1 else 0;
            var hh, colon, mm, rest := s[1..n - 2 - c], s[n - 2 - c..n - 2], s[n - 2..n], s[n..];
            IsSign(s[0]) && 1 <= |hh| <= 2 && AllDigits(hh)
            && (colon == "" || colon == ":") && (|hh| == 2 || colon == ":")
            && |mm| == 2 && AllDigits(mm) && DigitsValue(mm) < 60
            && ParseOffsetHoursMinutes(s).value.0 == Offset(SignOf(s[0]), DigitsValue(hh), DigitsValue(mm))
            && s == [s[0]] + hh + colon + mm + rest
  {
    var n := ParseOffsetHoursMinutes(s).value.1;
    var h := if |s| >= 3 && IsDigit(s[1]) && IsDigit(s[2]) then 2 else 1;
    var i := 1 + h;
    var j := if i < |s| && s[i] == ':' then i + 1 else i;
    assert s[j..][..2] == s[j..j + 2];
    assert n == j + 2;
    if j == i {
      assert IsDigit(s[j]) by { assert s[j..j + 2][0] == s[j]; }
      assert h == 2;
      assert s[n - 3] == s[2];
    }
    var c := if s[n - 3] == ':' then 1 else 0;
    assert n - 2 - c == i;
    var hh, colon, mm, rest := s[1..i], s[i..j], s[j..n], s[n..];
    assert AllDigits(hh) by {
      assert hh[0] == s[1];
      if h == 2 { assert hh[1] == s[2]; }
    }
    assert colon == "" || colon == ":" by {
      if j == i + 1 {
        assert |colon| == 1 && colon[0] == s[i];
        assert colon == [s[i]];
      }
    }
    assert s == [s[0]] + hh + colon + mm + rest;
  }

  /** "+0200" and "+2:00" read as two hours, like "+02:00"; "+230" has no minute digits after a one-digit hour. */
  lemma OffsetSpellings()
    ensures ParseOffsetHoursMinutes("+0200") == Some((Offset(Plus, 2, 0), 5))
    ensures ParseOffsetHoursMinutes("+2:00") == Some((Offset(Plus, 2, 0), 5))
    ensures ParseOffsetHoursMinutes("+230") == None
  {
    ParseOffsetForms('+', "02", "", "00", "");
    assert "+0200" == ['+'] + "02" + "" + "00" + "";
    ParseOffsetForms('+', "2", ":", "00", "");
    assert "+2:00" == ['+'] + "2" + ":" + "00" + "";
  }

  /** Where the parts of an offset lie, character by character. */
  lemma OffsetFormParts(sg: char, hh: string, colon: string, mm: string, rest: string)
    requires 1 <= |hh| <= 2 && AllDigits(hh)
    requires colon == "" || colon == ":"
    requires |hh| == 2 || colon == ":"
    requires |mm| == 2 && AllDigits(mm)
    ensures var s := [sg] + hh + colon + mm + rest;
            var i := 1 + |hh|;
            var j := i + |colon|;
            |s| >= j + 2 && s[0] == sg && IsDigit(s[1]) && (IsDigit(s[2]) <==> |hh| == 2)
            && (s[i] == ':' <==> colon == ":")
            && s[1..i] == hh && s[j..j + 2] == mm
  {
    var s := [sg] + hh + colon + mm + rest;
    var i := 1 + |hh|;
    var j := i + |colon|;
    assert s[1] == hh[0];
    if |hh| == 2 { assert s[2] == hh[1]; } else { assert s[2] == ':'; }
    if colon == "" { assert s[i] == mm[0]; } else { assert s[i] == ':'; }
    assert s[1..i] == hh;
    assert s[j..j + 2] == mm;
  }

  lemma TwoDigitsBound(ds: string)
    requires |ds| <= 2 && AllDigits(ds)
    ensures DigitsValue(ds) < 100
  {
    if |ds| == 2 {
      assert ds[..1][..0] == [];
    } else if |ds| == 1 {
      assert ds[..0] == [];
    }
  }

  /** Reads one token at the front of s into acc; returns the new fields and the number of characters read. */
  function ParseToken(t: Token, s: string, acc: DateTime): (r: Option<(DateTime, nat)>)
    ensures r.Some? ==> 0 < r.value.1 <= |s|
    ensures r.Some? && ValidZone(acc.zone) ==> ValidZone(r.value.0.zone)
  {
    match t
    case Year4 => if DigitsAt(s, 4) then Some((acc.(year := DigitsValue(s[..4])), 4)) else None
    case Month2 => if DigitsAt(s, 2) then Some((acc.(month := DigitsValue(s[..2])), 2)) else None
    case Day2 => if DigitsAt(s, 2) then Some((acc.(day := DigitsValue(s[..2])), 2)) else None
    case Hour2 => if DigitsAt(s, 2) then Some((acc.(hour := DigitsValue(s[..2])), 2)) else None
    case Minute2 => if DigitsAt(s, 2) then Some((acc.(minute := DigitsValue(s[..2])), 2)) else None
    case Second2 => if DigitsAt(s, 2) then Some((acc.(second := DigitsValue(s[..2])), 2)) else None
    case OffsetHoursMinutes =>
      (match ParseOffsetHoursMinutes(s)
       case None => None
       case Some((z, n)) => Some((acc.(zone := z), n)))
    case OffsetHours =>
      if 3 <= |s| && IsSign(s[0]) && DigitsAt(s[1..], 2) then
        assert s[1..][..2] == s[1..3];
        TwoDigitsBound(s[1..3]);
        Some((acc.(zone := Offset(SignOf(s[0]), DigitsValue(s[1..3]), 0)), 3))
      else None
    case UtcDesignator => if s != [] && s[0] == 'Z' then Some((acc.(zone := Utc), 1)) else None
    case Literal(c) => if s != [] && s[0] == c then Some((acc, 1)) else None
  }

  /** Reads the tokens in order; the whole of s must be used up. */
  function ParseTokens(ts: seq<Token>, s: string, acc: DateTime): (r: Option<DateTime>)
    ensures r.Some? && ValidZone(acc.zone) ==> ValidZone(r.value.zone)
    decreases |ts|
  {
    if ts == [] then (if s == [] then Some(acc) else None)
    else
      match ParseToken(ts[0], s, acc)
      case None => None
      case Some((next, n)) => ParseTokens(ts[1..], s[n..], next)
  }

  /** DateTime.TryParseExact with one pattern. */
  function ParseExact(f: string, s: string): (r: Option<DateTime>)
    ensures r.Some? ==> ValidDateTime(r.value)
  {
    match Tokenize(f)
    case None => None
    case Some(ts) =>
      match ParseTokens(ts, s, Unset)
      case None => None
      case Some(d) => if ValidCalendar(d) then Some(d) else None
  }

  /** DateTime.TryParseExact with several patterns: the first pattern that accepts s decides. */
  function FirstMatch(fs: seq<string>, s: string): (r: Option<DateTime>)
    ensures r.Some? ==> exists k :: 0 <= k < |fs| && ParseExact(fs[k], s) == r
                                   && forall j :: 0 <= j < k ==> ParseExact(fs[j], s).None?
    ensures r.None? <==> forall k :: 0 <= k < |fs| ==> ParseExact(fs[k], s).None?
  {
    if fs == [] then None
    else
      var here := ParseExact(fs[0], s);
      if here.Some? then here
      else
        var r := FirstMatch(fs[1..], s);
        assert forall k :: 1 <= k < |fs| ==> fs[k] == fs[1..][k - 1];
        r
  }

  /** The date coercion of Subber.ConvertSimpleTypes: TryParseExact over Formats. */
  function ParseDateTime(s: string): (r: Option<DateTime>)
    ensures r.Some? ==> ValidDateTime(r.value)
  {
    FirstMatch(Formats, s)
  }

  // ---------------------------------------------------------------------------
  // Printing a value with a pattern, and reading it back
  // ---------------------------------------------------------------------------

  function SignChar(sg: Sign): char { if sg == Minus then '-' else '+' }

  /** The offset an offset field prints: the zone itself when it is an offset, "+00:00" otherwise. */
  function AsOffset(z: Zone): (r: Zone)
    ensures r.Offset?
  {
    if z.Offset? then z else Offset(Plus, 0, 0)
  }

  /**
   * The text one token prints for the fields of d. This is the model's own
   * printer for the round-trip lemmas: it prints the offset stored in d,
   * where DateTime.ToString would print the machine's local offset.
   */
  function FormatToken(t: Token, d: DateTime): string
  {
    match t
    case Year4 => PadDigits(d.year, 4)
    case Month2 => PadDigits(d.month, 2)
    case Day2 => PadDigits(d.day, 2)
    case Hour2 => PadDigits(d.hour, 2)
    case Minute2 => PadDigits(d.minute, 2)
    case Second2 => PadDigits(d.second, 2)
    case OffsetHoursMinutes =>
      var z := AsOffset(d.zone);
      [SignChar(z.sign)] + PadDigits(z.hours, 2) + ":" + PadDigits(z.minutes, 2)
    case OffsetHours =>
      var z := AsOffset(d.zone);
      [SignChar(z.sign)] + PadDigits(z.hours, 2)
    case UtcDesignator => "Z"
    case Literal(c) => [c]
  }

  function FormatTokens(ts: seq<Token>, d: DateTime): string
  {
    if ts == [] then [] else FormatToken(ts[0], d) + FormatTokens(ts[1..], d)
  }

  /** d printed with pattern f. */
  function FormatExact(f: string, d: DateTime): string
    requires Tokenize(f).Some?
  {
    FormatTokens(Tokenize(f).value, d)
  }

  /** The part of d that token t records, written into acc. */
  function Carry(t: Token, d: DateTime, acc: DateTime): DateTime
  {
    match t
    case Year4 => acc.(year := d.year)
    case Month2 => acc.(month := d.month)
    case Day2 => acc.(day := d.day)
    case Hour2 => acc.(hour := d.hour)
    case Minute2 => acc.(minute := d.minute)
    case Second2 => acc.(second := d.second)
    case OffsetHoursMinutes => acc.(zone := AsOffset(d.zone))
    case OffsetHours => acc.(zone := Offset(AsOffset(d.zone).sign, AsOffset(d.zone).hours, 0))
    case UtcDesignator => acc.(zone := Utc)
    case Literal(_) => acc
  }

  function CarryAll(ts: seq<Token>, d: DateTime, acc: DateTime): DateTime
    decreases |ts|
  {
    if ts == [] then acc else CarryAll(ts[1..], d, Carry(ts[0], d, acc))
  }

  lemma PadDigitsValue2(n: nat)
    requires n < 100
    ensures DigitsValue(PadDigits(n, 2)) == n
  {
    assert Pow10(2) == 100;
    PadDigitsValue(n, 2);
  }

  /** Reading one printed token gives back what it records and reads exactly what was printed. */
  lemma ParseFormatToken(t: Token, d: DateTime, rest: string, acc: DateTime)
    requires d.year < 10000 && d.month < 100 && d.day < 100 && d.hour < 100 && d.minute < 100 && d.second < 100
    requires ValidZone(d.zone)
    ensures ParseToken(t, FormatToken(t, d) + rest, acc) == Some((Carry(t, d, acc), |FormatToken(t, d)|))
  {
    match t
    case Year4 => assert Pow10(4) == 10000; ReadPadded(d.year, 4, rest);
    case Month2 => ReadPadded2(d.month, rest);
    case Day2 => ReadPadded2(d.day, rest);
    case Hour2 => ReadPadded2(d.hour, rest);
    case Minute2 => ReadPadded2(d.minute, rest);
    case Second2 => ReadPadded2(d.second, rest);
    case OffsetHoursMinutes => ReadOffsetHoursMinutes(AsOffset(d.zone), rest);
    case OffsetHours => ReadOffsetHours(AsOffset(d.zone), rest);
    case UtcDesignator =>
    case Literal(c) =>
  }

  /** A number printed with w digits is read back from the front of any text that follows it. */
  lemma ReadPadded(n: nat, w: nat, rest: string)
    requires n < Pow10(w)
    ensures DigitsAt(PadDigits(n, w) + rest, w) && DigitsValue((PadDigits(n, w) + rest)[..w]) == n
  {
    assert (PadDigits(n, w) + rest)[..w] == PadDigits(n, w);
    PadDigitsValue(n, w);
  }

  lemma ReadPadded2(n: nat, rest: string)
    requires n < 100
    ensures DigitsAt(PadDigits(n, 2) + rest, 2) && DigitsValue((PadDigits(n, 2) + rest)[..2]) == n
  {
    assert Pow10(2) == 100;
    ReadPadded(n, 2, rest);
  }

  /** A printed "zzz" offset reads back as the same zone, six characters long. */
  lemma ReadOffsetHoursMinutes(z: Zone, rest: string)
    requires z.Offset? && ValidZone(z)
    ensures ParseOffsetHoursMinutes([SignChar(z.sign)] + PadDigits(z.hours, 2) + ":" + PadDigits(z.minutes, 2) + rest)
            == Some((z, 6))
  {
    var hh, mm := PadDigits(z.hours, 2), PadDigits(z.minutes, 2);
    var s := [SignChar(z.sign)] + hh + ":" + mm + rest;
    assert s[0] == SignChar(z.sign);
    assert s[1] == hh[0] && s[2] == hh[1] && s[3] == ':';
    assert s[1..3] == hh && s[4..6] == mm;
    assert s[4..][..2] == mm;
    PadDigitsValue2(z.hours);
    PadDigitsValue2(z.minutes);
  }

  /** A printed "zz" offset reads back as its sign and hours, three characters long. */
  lemma ReadOffsetHours(z: Zone, rest: string)
    requires z.Offset? && ValidZone(z)
    ensures var s := [SignChar(z.sign)] + PadDigits(z.hours, 2) + rest;
            3 <= |s| && IsSign(s[0]) && SignOf(s[0]) == z.sign && DigitsAt(s[1..], 2) && DigitsValue(s[1..3]) == z.hours
  {
    var hh := PadDigits(z.hours, 2);
    var s := [SignChar(z.sign)] + hh + rest;
    assert s[0] == SignChar(z.sign);
    assert s[1..3] == hh && s[1..][..2] == hh;
    PadDigitsValue2(z.hours);
  }

  /** Reading printed tokens gives back what they record and uses up exactly the printed text. */
  lemma {:induction false} ParseFormatTokens(ts: seq<Token>, d: DateTime, acc: DateTime)
    requires d.year < 10000 && d.month < 100 && d.day < 100 && d.hour < 100 && d.minute < 100 && d.second < 100
    requires ValidZone(d.zone)
    ensures ParseTokens(ts, FormatTokens(ts, d), acc) == Some(CarryAll(ts, d, acc))
    decreases |ts|
  {
    if ts != [] {
      var rest := FormatTokens(ts[1..], d);
      ParseFormatToken(ts[0], d, rest, acc);
      var n := |FormatToken(ts[0], d)|;
      assert (FormatToken(ts[0], d) + rest)[n..] == rest;
      ParseFormatTokens(ts[1..], d, Carry(ts[0], d, acc));
    }
  }

  /** Printing with a pattern and reading back with the same pattern is the identity on what the pattern records. */
  lemma ParseFormatExact(f: string, d: DateTime)
    requires Tokenize(f).Some?
    requires ValidDateTime(d)
    requires CarryAll(Tokenize(f).value, d, Unset) == d
    ensures ParseExact(f, FormatExact(f, d)) == Some(d)
  {
    ParseFormatTokens(Tokenize(f).value, d, Unset);
  }

  predicate IsZoneToken(t: Token) { t.OffsetHoursMinutes? || t.OffsetHours? || t.UtcDesignator? }

  lemma CarryFields(t: Token, d: DateTime, acc: DateTime)
    ensures Carry(t, d, acc).year == if t == Year4 then d.year else acc.year
    ensures Carry(t, d, acc).month == if t == Month2 then d.month else acc.month
    ensures Carry(t, d, acc).day == if t == Day2 then d.day else acc.day
    ensures Carry(t, d, acc).hour == if t == Hour2 then d.hour else acc.hour
    ensures Carry(t, d, acc).minute == if t == Minute2 then d.minute else acc.minute
    ensures Carry(t, d, acc).second == if t == Second2 then d.second else acc.second
    ensures !IsZoneToken(t) ==> Carry(t, d, acc).zone == acc.zone
  {
  }

  lemma {:induction false} CarryAllFields(ts: seq<Token>, d: DateTime, acc: DateTime)
    ensures CarryAll(ts, d, acc).year == if Year4 in ts then d.year else acc.year
    ensures CarryAll(ts, d, acc).month == if Month2 in ts then d.month else acc.month
    ensures CarryAll(ts, d, acc).day == if Day2 in ts then d.day else acc.day
    ensures CarryAll(ts, d, acc).hour == if Hour2 in ts then d.hour else acc.hour
    ensures CarryAll(ts, d, acc).minute == if Minute2 in ts then d.minute else acc.minute
    ensures CarryAll(ts, d, acc).second == if Second2 in ts then d.second else acc.second
    ensures (forall i :: 0 <= i < |ts| ==> !IsZoneToken(ts[i])) ==> CarryAll(ts, d, acc).zone == acc.zone
    decreases |ts|
  {
    if ts != [] {
      CarryFields(ts[0], d, acc);
      CarryAllFields(ts[1..], d, Carry(ts[0], d, acc));
      InCons(ts, Year4);
      InCons(ts, Month2);
      InCons(ts, Day2);
      InCons(ts, Hour2);
      InCons(ts, Minute2);
      InCons(ts, Second2);
      assert (forall i :: 0 <= i < |ts| ==> !IsZoneToken(ts[i])) ==>
        forall i :: 0 <= i < |ts[1..]| ==> !IsZoneToken(ts[1..][i]);
    }
  }

  lemma InCons(ts: seq<Token>, t: Token)
    requires ts != []
    ensures t in ts <==> t == ts[0] || t in ts[1..]
  {
    assert ts == [ts[0]] + ts[1..];
  }

  lemma {:induction false} CarryAllSnoc(ts: seq<Token>, t: Token, d: DateTime, acc: DateTime)
    ensures CarryAll(ts + [t], d, acc) == Carry(t, d, CarryAll(ts, d, acc))
    decreases |ts|
  {
    if ts == [] {
      assert [t][1..] == [];
    } else {
      assert (ts + [t])[0] == ts[0] && (ts + [t])[1..] == ts[1..] + [t];
      CarryAllSnoc(ts[1..], t, d, Carry(ts[0], d, acc));
    }
  }

  /**
   * A value that a pattern of the table can print without loss: the fields
   * below its precision are zero and its zone is of the pattern's kind.
   */
  predicate Representable(precision: Precision, zone: ZoneStyle, d: DateTime)
  {
    (precision != Seconds ==> d.second == 0)
    && (precision == Hours ==> d.minute == 0)
    && match zone
       case OffsetWithMinutes => d.zone.Offset?
       case OffsetHoursOnly => d.zone.Offset? && d.zone.minutes == 0
       case Zulu => d.zone == Utc
  }

  predicate BodyHasFields(body: seq<Token>, precision: Precision)
  {
    Year4 in body && Month2 in body && Day2 in body && Hour2 in body
    && (Minute2 in body <==> precision != Hours) && (Second2 in body <==> precision == Seconds)
    && forall i :: 0 <= i < |body| ==> !IsZoneToken(body[i])
  }

  lemma BasicFieldsListed(body: seq<Token>, precision: Precision)
    requires (body == [Year4, Month2, Day2, Literal('T'), Hour2, Minute2, Second2] && precision == Seconds)
          || (body == [Year4, Month2, Day2, Literal('T'), Hour2, Minute2] && precision == Minutes)
          || (body == [Year4, Month2, Day2, Literal('T'), Hour2] && precision == Hours)
    ensures BodyHasFields(body, precision)
  {
  }

  lemma ExtendedFieldsListed(body: seq<Token>, precision: Precision)
    requires (body == [Year4, Literal('-'), Month2, Literal('-'), Day2, Literal('T'),
                       Hour2, Literal(':'), Minute2, Literal(':'), Second2] && precision == Seconds)
          || (body == [Year4, Literal('-'), Month2, Literal('-'), Day2, Literal('T'), Hour2, Literal(':'), Minute2]
              && precision == Minutes)
          || (body == [Year4, Literal('-'), Month2, Literal('-'), Day2, Literal('T'), Hour2] && precision == Hours)
    ensures BodyHasFields(body, precision)
  {
  }

  /** The fields before the zone designator: the whole date, and the time down to the precision. */
  lemma BodyFields(layout: Layout, precision: Precision)
    ensures BodyHasFields(DateTokens(layout) + [Literal('T')] + TimeTokens(layout, precision), precision)
  {
    var body := DateTokens(layout) + [Literal('T')] + TimeTokens(layout, precision);
    if layout == Basic {
      match precision {
        case Seconds => assert body == [Year4, Month2, Day2, Literal('T'), Hour2, Minute2, Second2];
        case Minutes => assert body == [Year4, Month2, Day2, Literal('T'), Hour2, Minute2];
        case Hours => assert body == [Year4, Month2, Day2, Literal('T'), Hour2];
      }
      BasicFieldsListed(body, precision);
    } else {
      match precision {
        case Seconds =>
          assert body == [Year4, Literal('-'), Month2, Literal('-'), Day2, Literal('T'),
                          Hour2, Literal(':'), Minute2, Literal(':'), Second2];
        case Minutes =>
          assert body == [Year4, Literal('-'), Month2, Literal('-'), Day2, Literal('T'), Hour2, Literal(':'), Minute2];
        case Hours => assert body == [Year4, Literal('-'), Month2, Literal('-'), Day2, Literal('T'), Hour2];
      }
      ExtendedFieldsListed(body, precision);
    }
  }

  lemma CarryPattern(layout: Layout, precision: Precision, zone: ZoneStyle, d: DateTime)
    requires Representable(precision, zone, d)
    ensures CarryAll(PatternTokens(layout, precision, zone), d, Unset) == d
  {
    var body := DateTokens(layout) + [Literal('T')] + TimeTokens(layout, precision);
    assert PatternTokens(layout, precision, zone) == body + [ZoneToken(zone)];
    CarryAllSnoc(body, ZoneToken(zone), d, Unset);
    CarryAllFields(body, d, Unset);
    BodyFields(layout, precision);
  }

  /**
   * Every value printed with any pattern of the table, and representable in
   * it, is read back by that pattern; so the whole table accepts it.
   */
  lemma FormatsRoundTrip(k: nat, d: DateTime)
    requires k < |Formats|
    requires ValidDateTime(d)
    requires Representable(PrecisionAt(k), ZoneAt(k), d)
    ensures Tokenize(Formats[k]).Some?
    ensures ParseExact(Formats[k], FormatExact(Formats[k], d)) == Some(d)
    ensures ParseDateTime(FormatExact(Formats[k], d)).Some?
  {
    TokenizeFormats(k);
    CarryPattern(LayoutAt(k), PrecisionAt(k), ZoneAt(k), d);
    ParseFormatExact(Formats[k], d);
  }

  // ---------------------------------------------------------------------------
  // Accepted text is printed text (for the patterns whose offset has one spelling)
  // ---------------------------------------------------------------------------

  /** The part of a DateTime a token records. */
  datatype Field = YearField | MonthField | DayField | HourField | MinuteField | SecondField | ZoneField

  function FieldOf(t: Token): Option<Field>
  {
    match t
    case Year4 => Some(YearField)
    case Month2 => Some(MonthField)
    case Day2 => Some(DayField)
    case Hour2 => Some(HourField)
    case Minute2 => Some(MinuteField)
    case Second2 => Some(SecondField)
    case Literal(_) => None
    case _ => Some(ZoneField)
  }

  /** The fields the tokens of ts record. */
  function Fields(ts: seq<Token>): set<Field>
    decreases |ts|
  {
    if ts == [] then {}
    else (if FieldOf(ts[0]).Some? then {FieldOf(ts[0]).value} else {}) + Fields(ts[1..])
  }

  /** No field is recorded by two tokens of ts. */
  predicate FieldsOnce(ts: seq<Token>)
    decreases |ts|
  {
    ts == [] || ((FieldOf(ts[0]).Some? ==> FieldOf(ts[0]).value !in Fields(ts[1..])) && FieldsOnce(ts[1..]))
  }

  lemma SignCharOf(c: char)
    requires IsSign(c)
    ensures SignChar(SignOf(c)) == c
  {
  }

  /** One accepted token, other than "zzz", read exactly the text it prints for what it recorded. */
  lemma ReadTokenPrinted(t: Token, s: string, acc: DateTime)
    requires !t.OffsetHoursMinutes? && ParseToken(t, s, acc).Some?
    ensures var (next, n) := ParseToken(t, s, acc).value; s[..n] == FormatToken(t, next)
  {
    match t
    case Year4 => PadDigitsOfDigits(s[..4]);
    case Month2 => PadDigitsOfDigits(s[..2]);
    case Day2 => PadDigitsOfDigits(s[..2]);
    case Hour2 => PadDigitsOfDigits(s[..2]);
    case Minute2 => PadDigitsOfDigits(s[..2]);
    case Second2 => PadDigitsOfDigits(s[..2]);
    case OffsetHours =>
      assert s[1..][..2] == s[1..3];
      PadDigitsOfDigits(s[1..3]);
      SignCharOf(s[0]);
      assert s[..3] == [s[0]] + s[1..3];
    case UtcDesignator => assert s[..1] == [s[0]];
    case Literal(c) => assert s[..1] == [s[0]];
  }

  /** Reading a token that records another field leaves what t prints unchanged. */
  lemma ParseTokenKeeps(u: Token, s: string, acc: DateTime, t: Token)
    requires ParseToken(u, s, acc).Some?
    requires FieldOf(t).None? || FieldOf(t) != FieldOf(u)
    ensures FormatToken(t, ParseToken(u, s, acc).value.0) == FormatToken(t, acc)
  {
  }

  lemma {:induction false} ParseTokensKeeps(ts: seq<Token>, s: string, acc: DateTime, t: Token)
    requires ParseTokens(ts, s, acc).Some?
    requires FieldOf(t).None? || FieldOf(t).value !in Fields(ts)
    ensures FormatToken(t, ParseTokens(ts, s, acc).value) == FormatToken(t, acc)
    decreases |ts|
  {
    if ts != [] {
      var (next, n) := ParseToken(ts[0], s, acc).value;
      ParseTokenKeeps(ts[0], s, acc, t);
      ParseTokensKeeps(ts[1..], s[n..], next, t);
    }
  }

  /**
   * Text that tokens recording each field once, without a "zzz" offset, accept
   * is exactly what they print for the value read: nothing else is accepted.
   */
  lemma {:induction false} ParseTokensPrinted(ts: seq<Token>, s: string, acc: DateTime)
    requires ParseTokens(ts, s, acc).Some?
    requires FieldsOnce(ts) && OffsetHoursMinutes !in ts
    ensures s == FormatTokens(ts, ParseTokens(ts, s, acc).value)
    decreases |ts|
  {
    if ts != [] {
      var d := ParseTokens(ts, s, acc).value;
      var (next, n) := ParseToken(ts[0], s, acc).value;
      assert ts[0] in ts;
      ReadTokenPrinted(ts[0], s, acc);
      ParseTokensKeeps(ts[1..], s[n..], next, ts[0]);
      assert OffsetHoursMinutes !in ts[1..] by {
        assert forall i :: 0 <= i < |ts[1..]| ==> ts[1..][i] == ts[i + 1];
      }
      ParseTokensPrinted(ts[1..], s[n..], next);
      assert s == s[..n] + s[n..];
    }
  }

  lemma {:induction false} FieldsOnceAppend(a: seq<Token>, b: seq<Token>)
    requires FieldsOnce(a) && FieldsOnce(b) && Fields(a) !! Fields(b)
    ensures FieldsOnce(a + b) && Fields(a + b) == Fields(a) + Fields(b)
    decreases |a|
  {
    if a == [] {
      assert a + b == b;
    } else {
      assert (a + b)[1..] == a[1..] + b;
      FieldsOnceAppend(a[1..], b);
    }
  }

  lemma FieldsCons(t: Token, ts: seq<Token>)
    ensures Fields([t] + ts) == (if FieldOf(t).Some? then {FieldOf(t).value} else {}) + Fields(ts)
    ensures FieldsOnce([t] + ts) <==> (FieldOf(t).Some? ==> FieldOf(t).value !in Fields(ts)) && FieldsOnce(ts)
  {
    assert ([t] + ts)[1..] == ts;
  }

  lemma DateFields(layout: Layout)
    ensures var date := DateTokens(layout) + [Literal('T')];
            FieldsOnce(date) && Fields(date) == {YearField, MonthField, DayField}
  {
    var tail := [Literal('T')];
    FieldsCons(Literal('T'), []);
    assert tail == [Literal('T')] + [];
    FieldsCons(Day2, tail);
    if layout == Basic {
      FieldsCons(Month2, [Day2] + tail);
      FieldsCons(Year4, [Month2, Day2] + tail);
      assert DateTokens(layout) + tail == [Year4] + ([Month2] + ([Day2] + tail));
    } else {
      var d := [Day2] + tail;
      FieldsCons(Literal('-'), d);
      FieldsCons(Month2, [Literal('-')] + d);
      FieldsCons(Literal('-'), [Month2, Literal('-')] + d);
      FieldsCons(Year4, [Literal('-'), Month2, Literal('-')] + d);
      assert DateTokens(layout) + tail == [Year4] + ([Literal('-')] + ([Month2] + ([Literal('-')] + d)));
    }
  }

  lemma TimeFields(layout: Layout, precision: Precision)
    ensures var time := TimeTokens(layout, precision);
            FieldsOnce(time) && Fields(time) <= {HourField, MinuteField, SecondField}
  {
    match precision {
      case Seconds => SecondsFields(layout);
      case Minutes => MinutesFields(layout);
      case Hours =>
        FieldsCons(Hour2, []);
        assert [Hour2] == [Hour2] + [];
    }
  }

  lemma SecondsFields(layout: Layout)
    ensures var time := TimeTokens(layout, Seconds);
            FieldsOnce(time) && Fields(time) == {HourField, MinuteField, SecondField}
  {
    var s := [Second2];
    FieldsCons(Second2, []);
    assert s == [Second2] + [];
    if layout == Basic {
      FieldsCons(Minute2, s);
      FieldsCons(Hour2, [Minute2] + s);
      assert TimeTokens(layout, Seconds) == [Hour2] + ([Minute2] + s);
    } else {
      FieldsCons(Literal(':'), s);
      FieldsCons(Minute2, [Literal(':')] + s);
      FieldsCons(Literal(':'), [Minute2, Literal(':')] + s);
      FieldsCons(Hour2, [Literal(':'), Minute2, Literal(':')] + s);
      assert TimeTokens(layout, Seconds) == [Hour2] + ([Literal(':')] + ([Minute2] + ([Literal(':')] + s)));
    }
  }

  lemma MinutesFields(layout: Layout)
    ensures var time := TimeTokens(layout, Minutes);
            FieldsOnce(time) && Fields(time) == {HourField, MinuteField}
  {
    var m := [Minute2];
    FieldsCons(Minute2, []);
    assert m == [Minute2] + [];
    if layout == Basic {
      FieldsCons(Hour2, m);
      assert TimeTokens(layout, Minutes) == [Hour2] + m;
    } else {
      FieldsCons(Literal(':'), m);
      FieldsCons(Hour2, [Literal(':')] + m);
      assert TimeTokens(layout, Minutes) == [Hour2] + ([Literal(':')] + m);
    }
  }

  /** Each pattern of the table records each field once, and only the "zzz" patterns hold a "zzz" offset. */
  lemma PatternFieldsOnce(layout: Layout, precision: Precision, zone: ZoneStyle)
    ensures FieldsOnce(PatternTokens(layout, precision, zone))
    ensures zone != OffsetWithMinutes ==> OffsetHoursMinutes !in PatternTokens(layout, precision, zone)
  {
    DateFields(layout);
    TimeFields(layout, precision);
    ZonedFieldsOnce(DateTokens(layout) + [Literal('T')], TimeTokens(layout, precision), ZoneToken(zone));
  }

  /** Date and time tokens that record their fields once, followed by one zone token, record each field once. */
  lemma ZonedFieldsOnce(date: seq<Token>, time: seq<Token>, zt: Token)
    requires FieldsOnce(date) && FieldsOnce(time) && Fields(date) !! Fields(time)
    requires ZoneField !in Fields(date) + Fields(time) && FieldOf(zt) == Some(ZoneField)
    ensures FieldsOnce(date + time + [zt])
    ensures zt != OffsetHoursMinutes ==> OffsetHoursMinutes !in date + time + [zt]
  {
    FieldsCons(zt, []);
    assert [zt] == [zt] + [];
    FieldsOnceAppend(date, time);
    FieldsOnceAppend(date + time, [zt]);
    if zt != OffsetHoursMinutes && OffsetHoursMinutes in date + time + [zt] {
      assert OffsetHoursMinutes in date + time;
      InFields(date + time, OffsetHoursMinutes);
    }
  }

  lemma {:induction false} InFields(ts: seq<Token>, t: Token)
    requires t in ts && FieldOf(t).Some?
    ensures FieldOf(t).value in Fields(ts)
    decreases |ts|
  {
    if ts[0] != t {
      assert t in ts[1..];
      InFields(ts[1..], t);
    }
  }

  /**
   * The converse of FormatsRoundTrip for the "zz" and "Z" patterns: text a
   * pattern accepts is that pattern's print of the value read.
   */
  lemma ParseExactPrinted(k: nat, s: string)
    requires k < |Formats| && ZoneAt(k) != OffsetWithMinutes
    requires ParseExact(Formats[k], s).Some?
    ensures Tokenize(Formats[k]).Some?
    ensures s == FormatExact(Formats[k], ParseExact(Formats[k], s).value)
  {
    TokenizeFormats(k);
    PatternFieldsOnce(LayoutAt(k), PrecisionAt(k), ZoneAt(k));
    ParseTokensPrinted(PatternTokens(LayoutAt(k), PrecisionAt(k), ZoneAt(k)), s, Unset);
  }

  /** Every pattern starts with "yyyy", so text without four leading digits is rejected by the whole table. */
  lemma YearFirst(k: nat, s: string)
    requires k < |Formats| && !DigitsAt(s, 4)
    ensures ParseExact(Formats[k], s) == None
  {
    TokenizeFormats(k);
    var ts := PatternTokens(LayoutAt(k), PrecisionAt(k), ZoneAt(k));
    assert ts[0] == Year4;
  }

  lemma YearThenMonthRejectsDash(ts: seq<Token>, s: string, acc: DateTime)
    requires 2 <= |ts| && ts[0] == Year4 && ts[1] == Month2
    requires 4 < |s| && s[4] == '-'
    ensures ParseTokens(ts, s, acc) == None
  {
    match ParseToken(Year4, s, acc)
    case None =>
    case Some((next, n)) =>
      assert n == 4;
      assert ts[1..][0] == Month2;
      assert !DigitsAt(s[4..], 2);
      assert ParseToken(Month2, s[4..], next) == None;
  }

  /** A basic-layout pattern rejects text whose fifth character is '-' (an extended-layout date). */
  lemma BasicRejectsExtended(k: nat, s: string)
    requires k < |Formats| && LayoutAt(k) == Basic
    requires 4 < |s| && s[4] == '-'
    ensures ParseExact(Formats[k], s) == None
  {
    TokenizeFormats(k);
    var ts := PatternTokens(LayoutAt(k), PrecisionAt(k), ZoneAt(k));
    assert ts[0] == Year4 && ts[1] == Month2;
    YearThenMonthRejectsDash(ts, s, Unset);
  }

  /** When every earlier pattern rejects s and pattern k accepts it, the table's answer is pattern k's. */
  lemma {:induction false} FirstMatchAt(fs: seq<string>, s: string, k: nat)
    requires k < |fs| && ParseExact(fs[k], s).Some?
    requires forall j :: 0 <= j < k ==> ParseExact(fs[j], s).None?
    ensures FirstMatch(fs, s) == ParseExact(fs[k], s)
  {
    if k > 0 {
      assert ParseExact(fs[0], s).None?;
      assert fs[1..][k - 1] == fs[k];
      assert forall j :: 0 <= j < k - 1 ==> fs[1..][j] == fs[j + 1];
      FirstMatchAt(fs[1..], s, k - 1);
    }
  }

  lemma YearThenDash(ts: seq<Token>, d: DateTime)
    requires 2 <= |ts| && ts[0] == Year4 && ts[1] == Literal('-')
    ensures 4 < |FormatTokens(ts, d)| && FormatTokens(ts, d)[4] == '-'
  {
    var tail := ts[1..];
    assert tail[0] == Literal('-');
    assert FormatTokens(tail, d) == "-" + FormatTokens(tail[1..], d);
    assert FormatTokens(ts, d) == PadDigits(d.year, 4) + FormatTokens(tail, d);
  }

  lemma ExtendedDash(k: nat, d: DateTime)
    requires k < |Formats| && LayoutAt(k) == Extended
    ensures Tokenize(Formats[k]).Some?
    ensures 4 < |FormatExact(Formats[k], d)| && FormatExact(Formats[k], d)[4] == '-'
  {
    TokenizeFormats(k);
    var ts := PatternTokens(LayoutAt(k), PrecisionAt(k), ZoneAt(k));
    assert ts[0] == Year4 && ts[1] == Literal('-');
    YearThenDash(ts, d);
  }

  /**
   * Text printed in the extended layout with seconds and a "zzz" offset is
   * read back exactly by the whole table: the three basic patterns before it
   * reject it, so the first match is the pattern it was printed with.
   */
  lemma ParseDateTimeExtendedOffset(d: DateTime)
    requires ValidDateTime(d) && d.zone.Offset?
    ensures Tokenize(Formats[3]).Some?
    ensures ParseDateTime(FormatExact(Formats[3], d)) == Some(d)
  {
    ParseDateTimeExtendedOffsetAt(3, d);
  }

  lemma ParseDateTimeExtendedOffsetAt(k: nat, d: DateTime)
    requires k < 6 && LayoutAt(k) == Extended && ZoneAt(k) == OffsetWithMinutes
    requires ValidDateTime(d) && d.zone.Offset?
    ensures Tokenize(Formats[k]).Some?
    ensures ParseDateTime(FormatExact(Formats[k], d)) == Some(d)
  {
    assert k == 3;
    FormatsRoundTrip(k, d);
    ExtendedDash(k, d);
    var s := FormatExact(Formats[k], d);
    BasicFirstRejectDash(s);
    FirstMatchAt(Formats, s, k);
  }

  /** The three basic patterns at the head of the table reject text with a '-' after the year. */
  lemma BasicFirstRejectDash(s: string)
    requires 4 < |s| && s[4] == '-'
    ensures forall j :: 0 <= j < 3 ==> ParseExact(Formats[j], s).None?
  {
    forall j | 0 <= j < 3
      ensures ParseExact(Formats[j], s).None?
    {
      BasicRejectsExtended(j, s);
    }
  }

  lemma FormatTokensCons(ts: seq<Token>, d: DateTime)
    requires ts != []
    ensures FormatTokens(ts, d) == FormatToken(ts[0], d) + FormatTokens(ts[1..], d)
  {
  }

  lemma {:induction false} FormatTokensAppend(a: seq<Token>, b: seq<Token>, d: DateTime)
    ensures FormatTokens(a + b, d) == FormatTokens(a, d) + FormatTokens(b, d)
  {
    if a == [] {
      assert a + b == b;
    } else {
      assert (a + b)[1..] == a[1..] + b;
      FormatTokensAppend(a[1..], b, d);
    }
  }

  lemma FormatFieldLiteralField(f: Token, c: char, rest: seq<Token>, d: DateTime)
    ensures FormatTokens([f, Literal(c)] + rest, d) == FormatToken(f, d) + [c] + FormatTokens(rest, d)
  {
    var ts := [f, Literal(c)] + rest;
    FormatTokensCons(ts, d);
    assert ts[1..] == [Literal(c)] + rest;
    FormatTokensCons(ts[1..], d);
    assert ts[1..][1..] == rest;
  }

  lemma FormatOne(t: Token, d: DateTime)
    ensures FormatTokens([t], d) == FormatToken(t, d)
  {
    FormatTokensCons([t], d);
  }

  lemma FormatExtendedDate(d: DateTime)
    ensures FormatTokens(DateTokens(Extended), d) ==
              PadDigits(d.year, 4) + "-" + PadDigits(d.month, 2) + "-" + PadDigits(d.day, 2)
  {
    assert DateTokens(Extended) == [Year4, Literal('-')] + ([Month2, Literal('-')] + [Day2]);
    FormatFieldLiteralField(Year4, '-', [Month2, Literal('-')] + [Day2], d);
    FormatFieldLiteralField(Month2, '-', [Day2], d);
    FormatOne(Day2, d);
  }

  lemma FormatExtendedTime(d: DateTime)
    ensures FormatTokens(TimeTokens(Extended, Seconds), d) ==
              PadDigits(d.hour, 2) + ":" + PadDigits(d.minute, 2) + ":" + PadDigits(d.second, 2)
  {
    assert TimeTokens(Extended, Seconds) == [Hour2, Literal(':')] + ([Minute2, Literal(':')] + [Second2]);
    FormatFieldLiteralField(Hour2, ':', [Minute2, Literal(':')] + [Second2], d);
    FormatFieldLiteralField(Minute2, ':', [Second2], d);
    FormatOne(Second2, d);
  }

  lemma FormatExtendedOffsetTokens(d: DateTime)
    requires d.zone.Offset?
    ensures FormatTokens(PatternTokens(Extended, Seconds, OffsetWithMinutes), d) ==
              (PadDigits(d.year, 4) + "-" + PadDigits(d.month, 2) + "-" + PadDigits(d.day, 2)) + "T"
              + (PadDigits(d.hour, 2) + ":" + PadDigits(d.minute, 2) + ":" + PadDigits(d.second, 2))
              + ([SignChar(d.zone.sign)] + PadDigits(d.zone.hours, 2) + ":" + PadDigits(d.zone.minutes, 2))
  {
    var date, time := DateTokens(Extended), TimeTokens(Extended, Seconds);
    assert PatternTokens(Extended, Seconds, OffsetWithMinutes) == date + [Literal('T')] + time + [OffsetHoursMinutes];
    var front := date + [Literal('T')];
    FormatTokensAppend(front + time, [OffsetHoursMinutes], d);
    FormatTokensAppend(front, time, d);
    FormatTokensAppend(date, [Literal('T')], d);
    FormatOne(Literal('T'), d);
    FormatOne(OffsetHoursMinutes, d);
    FormatOffsetToken(d);
    FormatExtendedDate(d);
    FormatExtendedTime(d);
  }

  lemma FormatOffsetToken(d: DateTime)
    requires d.zone.Offset?
    ensures FormatToken(OffsetHoursMinutes, d)
         == [SignChar(d.zone.sign)] + PadDigits(d.zone.hours, 2) + ":" + PadDigits(d.zone.minutes, 2)
  {
    assert AsOffset(d.zone) == d.zone;
  }

  /** What the extended pattern with seconds and "zzz" prints for a date carrying an offset. */
  lemma FormatExtendedOffset(k: nat, d: DateTime)
    requires k < |Formats| && LayoutAt(k) == Extended && PrecisionAt(k) == Seconds && ZoneAt(k) == OffsetWithMinutes
    requires d.zone.Offset?
    ensures Tokenize(Formats[k]).Some?
    ensures FormatExact(Formats[k], d) ==
              (PadDigits(d.year, 4) + "-" + PadDigits(d.month, 2) + "-" + PadDigits(d.day, 2)) + "T"
              + (PadDigits(d.hour, 2) + ":" + PadDigits(d.minute, 2) + ":" + PadDigits(d.second, 2))
              + ([SignChar(d.zone.sign)] + PadDigits(d.zone.hours, 2) + ":" + PadDigits(d.zone.minutes, 2))
  {
    TokenizeFormats(k);
    FormatExtendedOffsetTokens(d);
  }
}

=== FILE: json.dfy ===
/**
 * The parsed JSON document (Newtonsoft's JToken tree) as a value, with the
 * dotted-key lookup that SelectToken performs for the paths used here and the
 * replacement of the node found (JToken.Replace), which overwrites one child
 * slot of its parent object.
 */
module Json {
  import opened Options
  import Dates

  /** A node of the tree, tagged like JTokenType. Object properties keep their document order. */
  datatype Token =
    | Object(properties: seq<Property>)
    | Array(items: seq<Token>)
    | String(text: string)
    | Integer(number: int)
    | Float(bits: bv64)        // the IEEE 754 bit pattern of a double; never inspected
    | Boolean(flag: bool)
    | Date(moment: Dates.DateTime)
    | Null

  /** A JProperty: a name and the node it holds. */
  datatype Property = Property(name: string, value: Token)

  /** JTokenType, restricted to the tags a parsed document holds. */
  datatype TokenType = ObjectType | ArrayType | StringType | IntegerType | FloatType | BooleanType | DateType | NullType

  function TypeOf(t: Token): TokenType
  {
    match t
    case Object(_) => ObjectType
    case Array(_) => ArrayType
    case String(_) => StringType
    case Integer(_) => IntegerType
    case Float(_) => FloatType
    case Boolean(_) => BooleanType
    case Date(_) => DateType
    case Null => NullType
  }

  /** A node without children. */
  predicate IsValue(t: Token) { !t.Object? && !t.Array? }

  function Names(ps: seq<Property>): (r: seq<string>)
    ensures |r| == |ps| && forall i :: 0 <= i < |ps| ==> r[i] == ps[i].name
  {
    if ps == [] then [] else [ps[0].name] + Names(ps[1..])
  }

  /** A JObject never holds two properties of the same name. */
  predicate DistinctNames(ps: seq<Property>)
  {
    forall i, j :: 0 <= i < j < |ps| ==> ps[i].name != ps[j].name
  }

  /** Every object in the tree has distinct property names. */
  predicate WellFormed(t: Token)
    decreases t
  {
    match t
    case Object(ps) => DistinctNames(ps) && forall i :: 0 <= i < |ps| ==> WellFormed(ps[i].value)
    case Array(items) => forall i :: 0 <= i < |items| ==> WellFormed(items[i])
    case _ => true
  }

  /** The position of the property called name (JObject's indexer), if there is one. */
  function IndexOf(ps: seq<Property>, name: string): (r: Option<nat>)
    ensures r.Some? ==> r.value < |ps| && ps[r.value].name == name
                        && forall j :: 0 <= j < r.value ==> ps[j].name != name
    ensures r.None? ==> forall j :: 0 <= j < |ps| ==> ps[j].name != name
  {
    if ps == [] then None
    else if ps[0].name == name then Some(0)
    else match IndexOf(ps[1..], name)
         case None => None
         case Some(i) => Some(i + 1)
  }

  /**
   * SelectToken for a dotted key path: each segment names a property of the
   * object reached so far; a missing name or a segment applied to anything but
   * an object finds nothing.
   */
  function Lookup(t: Token, path: seq<string>): (r: Option<Token>)
    ensures path != [] && r.Some? ==> t.Object? && IndexOf(t.properties, path[0]).Some?
    decreases |path|
  {
    if path == [] then Some(t)
    else match t
         case Object(ps) =>
           (match IndexOf(ps, path[0])
            case None => None
            case Some(i) => Lookup(ps[i].value, path[1..]))
         case _ => None
  }

  /**
   * JToken.Replace applied to the node at path: the property slot that holds
   * it receives v; a path that finds nothing leaves the tree as it is.
   */
  function ReplaceAt(t: Token, path: seq<string>, v: Token): (r: Token)
    ensures path != [] ==> TypeOf(r) == TypeOf(t)
    ensures path != [] && t.Object? ==> Names(r.properties) == Names(t.properties)
    decreases |path|
  {
    if path == [] then v
    else match t
         case Object(ps) =>
           (match IndexOf(ps, path[0])
            case None => t
            case Some(i) =>
              var ps' := ps[i := Property(ps[i].name, ReplaceAt(ps[i].value, path[1..], v))];
              assert Names(ps') == Names(ps);
              Object(ps'))
         case _ => t
  }

  predicate IsPrefix(p: seq<string>, q: seq<string>) { |p| <= |q| && q[..|p|] == p }

  /** Two paths that part ways: neither leads through the other. */
  predicate Diverge(p: seq<string>, q: seq<string>) { !IsPrefix(p, q) && !IsPrefix(q, p) }

  /** Looking up a longer path is looking up its front, then the rest from the node found. */
  lemma {:induction false} LookupAppend(t: Token, p: seq<string>, q: seq<string>)
    ensures Lookup(t, p + q) == match Lookup(t, p) case None => None case Some(u) => Lookup(u, q)
    decreases |p|
  {
    if p == [] {
      assert p + q == q;
    } else {
      var full := p + q;
      assert full[0] == p[0] && full[1..] == p[1..] + q;
      if t.Object? && IndexOf(t.properties, p[0]).Some? {
        LookupAppend(t.properties[IndexOf(t.properties, p[0]).value].value, p[1..], q);
      }
    }
  }

  /** After a replacement the path reads back the new node. */
  lemma {:induction false} LookupReplaceAt(t: Token, path: seq<string>, v: Token)
    requires Lookup(t, path).Some?
    ensures Lookup(ReplaceAt(t, path, v), path) == Some(v)
    decreases |path|
  {
    if path != [] {
      var ps := t.properties;
      var i := IndexOf(ps, path[0]).value;
      var ps' := ps[i := Property(ps[i].name, ReplaceAt(ps[i].value, path[1..], v))];
      IndexOfUpdate(ps, i, ReplaceAt(ps[i].value, path[1..], v), path[0]);
      LookupReplaceAt(ps[i].value, path[1..], v);
    }
  }

  /** Two property lists with the same names find every name at the same place. */
  lemma {:induction false} IndexOfSameNames(ps: seq<Property>, qs: seq<Property>, name: string)
    requires Names(ps) == Names(qs)
    ensures IndexOf(ps, name) == IndexOf(qs, name)
  {
    if ps != [] {
      assert Names(ps[1..]) == Names(ps)[1..] && Names(qs[1..]) == Names(qs)[1..];
      IndexOfSameNames(ps[1..], qs[1..], name);
    }
  }

  /** Overwriting the value of one property moves no name. */
  lemma IndexOfUpdate(ps: seq<Property>, i: nat, x: Token, name: string)
    requires i < |ps|
    ensures IndexOf(ps[i := Property(ps[i].name, x)], name) == IndexOf(ps, name)
  {
    var ps' := ps[i := Property(ps[i].name, x)];
    assert Names(ps) == Names(ps');
    IndexOfSameNames(ps, ps', name);
  }

  /** A path that finds nothing: the replacement leaves the tree unchanged. */
  lemma {:induction false} ReplaceAtNotFound(t: Token, path: seq<string>, v: Token)
    requires Lookup(t, path).None?
    ensures ReplaceAt(t, path, v) == t
    decreases |path|
  {
    if t.Object? {
      var i := IndexOf(t.properties, path[0]);
      if i.Some? {
        ReplaceAtNotFound(t.properties[i.value].value, path[1..], v);
        assert t.properties[i.value := Property(t.properties[i.value].name, t.properties[i.value].value)] == t.properties;
      }
    }
  }

  /** Every path that parts ways with the replaced one reads exactly as before. */
  lemma {:induction false} LookupReplaceAtElsewhere(t: Token, path: seq<string>, v: Token, q: seq<string>)
    requires Diverge(path, q)
    ensures Lookup(ReplaceAt(t, path, v), q) == Lookup(t, q)
    decreases |path|
  {
    assert path != [] && q != [];
    if t.Object? && IndexOf(t.properties, path[0]).Some? {
      var ps := t.properties;
      var i := IndexOf(ps, path[0]).value;
      var ps' := ps[i := Property(ps[i].name, ReplaceAt(ps[i].value, path[1..], v))];
      IndexOfUpdate(ps, i, ReplaceAt(ps[i].value, path[1..], v), q[0]);
      if q[0] == path[0] {
        assert Diverge(path[1..], q[1..]) by {
          assert path == [path[0]] + path[1..] && q == [q[0]] + q[1..];
        }
        LookupReplaceAtElsewhere(ps[i].value, path[1..], v, q[1..]);
      }
    }
  }

  /** Below the replaced node, paths read inside the new node. */
  lemma {:induction false} LookupReplaceAtBelow(t: Token, path: seq<string>, v: Token, rest: seq<string>)
    requires Lookup(t, path).Some?
    ensures Lookup(ReplaceAt(t, path, v), path + rest) == Lookup(v, rest)
    decreases |path|
  {
    if path == [] {
      assert path + rest == rest;
    } else {
      var ps := t.properties;
      var i := IndexOf(ps, path[0]).value;
      var ps' := ps[i := Property(ps[i].name, ReplaceAt(ps[i].value, path[1..], v))];
      IndexOfUpdate(ps, i, ReplaceAt(ps[i].value, path[1..], v), path[0]);
      var full := path + rest;
      assert full[0] == path[0] && full[1..] == path[1..] + rest;
      LookupReplaceAtBelow(ps[i].value, path[1..], v, rest);
    }
  }

  /** One step of a replacement that finds its first segment. */
  lemma ReplaceAtStep(t: Token, path: seq<string>, v: Token)
    requires path != [] && t.Object? && IndexOf(t.properties, path[0]).Some?
    ensures var i := IndexOf(t.properties, path[0]).value;
            ReplaceAt(t, path, v) ==
              Object(t.properties[i := Property(path[0], ReplaceAt(t.properties[i].value, path[1..], v))])
  {
  }

  /** A path through the first segment of the replaced one reads inside the child the replacement descends into. */
  lemma LookupReplaceAtStep(t: Token, path: seq<string>, v: Token, q: seq<string>)
    requires path != [] && q != [] && q[0] == path[0]
    requires Lookup(t, path).Some?
    ensures var c := t.properties[IndexOf(t.properties, path[0]).value].value;
            Lookup(ReplaceAt(t, path, v), q) == Lookup(ReplaceAt(c, path[1..], v), q[1..])
            && Lookup(t, q) == Lookup(c, q[1..])
  {
    var qs := t.properties;
    var i := IndexOf(qs, path[0]).value;
    ReplaceAtStep(t, path, v);
    IndexOfUpdate(qs, i, ReplaceAt(qs[i].value, path[1..], v), path[0]);
  }

  /** Dropping the first segment of a path and of a proper prefix of it. */
  lemma PathShift(q: seq<string>, path: seq<string>)
    requires IsPrefix(q, path) && 0 < |q| < |path|
    ensures q[0] == path[0] && IsPrefix(q[1..], path[1..]) && |q[1..]| < |path[1..]|
    ensures path[1..][|q[1..]|] == path[|q|] && path[1..][|q[1..]| + 1..] == path[|q| + 1..]
  {
    assert q[1..] == path[1..][..|q| - 1];
  }

  /**
   * Along the replaced path every object keeps its properties, their names and
   * their order; exactly one slot, the one the path goes through, changes.
   */
  lemma {:induction false} ReplaceAtAlong(t: Token, path: seq<string>, v: Token, q: seq<string>, ps: seq<Property>)
    requires IsPrefix(q, path) && |q| < |path|
    requires Lookup(t, path).Some?
    requires Lookup(t, q) == Some(Object(ps))
    ensures IndexOf(ps, path[|q|]).Some?
    ensures Lookup(ReplaceAt(t, path, v), q) ==
              Some(Object(ps[IndexOf(ps, path[|q|]).value :=
                Property(path[|q|], ReplaceAt(ps[IndexOf(ps, path[|q|]).value].value, path[|q| + 1..], v))]))
    decreases |q|
  {
    if q == [] {
      ReplaceAtStep(t, path, v);
    } else {
      PathShift(q, path);
      var c := t.properties[IndexOf(t.properties, path[0]).value].value;
      LookupReplaceAtStep(t, path, v, q);
      ReplaceAtAlong(c, path[1..], v, q[1..], ps);
    }
  }

  /** Replacing twice at one path: the second replacement wins. */
  lemma {:induction false} ReplaceAtTwice(t: Token, path: seq<string>, v: Token, w: Token)
    ensures ReplaceAt(ReplaceAt(t, path, v), path, w) == ReplaceAt(t, path, w)
    decreases |path|
  {
    if path != [] && t.Object? {
      match IndexOf(t.properties, path[0])
      case None =>
        assert ReplaceAt(t, path, v) == t;
      case Some(i) =>
        ReplaceAtTwice(t.properties[i].value, path[1..], v, w);
        ReplaceAtTwiceStep(t, path, v, w);
    }
  }

  /** The step of ReplaceAtTwice: the second replacement overwrites the slot the first one wrote. */
  lemma ReplaceAtTwiceStep(t: Token, path: seq<string>, v: Token, w: Token)
    requires path != [] && t.Object? && IndexOf(t.properties, path[0]).Some?
    requires var c := t.properties[IndexOf(t.properties, path[0]).value].value;
             ReplaceAt(ReplaceAt(c, path[1..], v), path[1..], w) == ReplaceAt(c, path[1..], w)
    ensures ReplaceAt(ReplaceAt(t, path, v), path, w) == ReplaceAt(t, path, w)
  {
    var ps := t.properties;
    var i := IndexOf(ps, path[0]).value;
    var inner := ReplaceAt(ps[i].value, path[1..], v);
    var ps' := ps[i := Property(path[0], inner)];
    ReplaceAtStep(t, path, v);
    IndexOfUpdate(ps, i, inner, path[0]);
    ReplaceAtStep(Object(ps'), path, w);
    ReplaceAtStep(t, path, w);
    var slot := Property(path[0], ReplaceAt(ps[i].value, path[1..], w));
    assert ps'[i := slot] == ps[i := slot];
  }

  /** A replacement by a well-formed node keeps every object's names distinct. */
  lemma {:induction false} ReplaceAtWellFormed(t: Token, path: seq<string>, v: Token)
    requires WellFormed(t) && WellFormed(v)
    ensures WellFormed(ReplaceAt(t, path, v))
    decreases |path|
  {
    if path != [] && t.Object? && IndexOf(t.properties, path[0]).Some? {
      var ps := t.properties;
      var i := IndexOf(ps, path[0]).value;
      ReplaceAtWellFormed(ps[i].value, path[1..], v);
      var ps' := ps[i := Property(ps[i].name, ReplaceAt(ps[i].value, path[1..], v))];
      assert Names(ps') == Names(ps);
      assert forall j :: 0 <= j < |ps'| ==> WellFormed(ps'[j].value);
    }
  }
}

=== FILE: jsonpath.dfy ===
/**
 * The part of the JSONPath grammar that SelectToken is used with here: member
 * names separated by '.', as in "ConnectionStrings.Cdn".
 */
module JsonPath {

  /** The pieces of s between the '.' separators, in order. */
  function Split(s: string): (r: seq<string>)
    ensures |r| >= 1
    ensures forall i :: 0 <= i < |r| ==> '.' !in r[i]
  {
    if s == [] then [""]
    else
      var rest := Split(s[1..]);
      if s[0] == '.' then [""] + rest
      else [[s[0]] + rest[0]] + rest[1..]
  }

  /** The segments written back with '.' between them. */
  function Join(segments: seq<string>): string
    requires |segments| >= 1
  {
    if |segments| == 1 then segments[0] else segments[0] + "." + Join(segments[1..])
  }

  lemma {:induction false} SplitPrefix(a: string, r: string)
    requires '.' !in a
    ensures Split(a + r) == [a + Split(r)[0]] + Split(r)[1..]
  {
    if a == [] {
      assert a + r == r;
      assert [] + Split(r)[0] == Split(r)[0];
    } else {
      assert (a + r)[0] == a[0] && (a + r)[1..] == a[1..] + r;
      SplitPrefix(a[1..], r);
      assert [a[0]] + (a[1..] + Split(r)[0]) == a + Split(r)[0];
    }
  }

  /** Joining segments that hold no '.' and splitting again gives the same segments. */
  lemma {:induction false} SplitJoin(segments: seq<string>)
    requires |segments| >= 1
    requires forall i :: 0 <= i < |segments| ==> '.' !in segments[i]
    ensures Split(Join(segments)) == segments
  {
    if |segments| == 1 {
      SplitPrefix(segments[0], []);
      assert segments[0] + [] == segments[0];
    } else {
      var rest := segments[1..];
      SplitJoin(rest);
      assert segments[0] + "." + Join(rest) == segments[0] + ("." + Join(rest));
      SplitPrefix(segments[0], "." + Join(rest));
      var r := "." + Join(rest);
      assert r[0] == '.' && r[1..] == Join(rest);
      assert Split(r) == [""] + rest;
      assert Split(r)[0] == "" && Split(r)[1..] == rest;
      assert segments[0] + "" == segments[0];
      assert segments == [segments[0]] + rest;
    }
  }

  /** Splitting a path and joining the pieces gives the path back. */
  lemma {:induction false} JoinSplit(s: string)
    ensures Join(Split(s)) == s
  {
    if s != [] {
      var rest := Split(s[1..]);
      JoinSplit(s[1..]);
      if s[0] == '.' {
        assert ([""] + rest)[1..] == rest;
        assert s == "." + s[1..];
      } else {
        var r := [[s[0]] + rest[0]] + rest[1..];
        if |rest| == 1 {
          assert s == [s[0]] + s[1..];
        } else {
          assert r[1..] == rest[1..];
          assert Join(rest) == rest[0] + "." + Join(rest[1..]);
          assert s == [s[0]] + s[1..];
        }
      }
    }
  }

  /**
   * A member name JSONPath reads without brackets: no separator, bracket,
   * parenthesis or blank, and not the wildcard "*" or a lone "$" or "@"
   * (the root and current-node markers). A name such as "$schema" is plain.
   */
  predicate IsPlainName(segment: string)
  {
    segment != [] && segment != "*" && segment != "$" && segment != "@"
    && forall i :: 0 <= i < |segment| ==> segment[i] !in ".[]() "
  }

  /** A path made only of plain member names separated by '.'. */
  predicate IsDottedPath(path: string)
  {
    forall segment :: segment in Split(path) ==> IsPlainName(segment)
  }

  /** The member names a dotted path steps through, from the root down. */
  function Segments(path: string): (r: seq<string>)
    requires IsDottedPath(path)
    ensures |r| >= 1 && Join(r) == path
    ensures forall i :: 0 <= i < |r| ==> IsPlainName(r[i])
  {
    JoinSplit(path);
    Split(path)
  }
}

=== FILE: options.dfy ===
/** The optional value used wherever the source returns "nothing found" or a failed TryParse. */
module Options {

  datatype Option<+T> = None | Some(value: T)
}

=== FILE: parsers.dfy ===
/**
 * Models of the two .NET primitive parsers that ConvertSimpleTypes relies on:
 * int.TryParse (NumberStyles.Integer, 32-bit result) and bool.TryParse.
 * Each parser comes with its printer (int.ToString, bool.ToString) and the
 * round trip that ties the two together.
 */
module Parsers {
  import opened Options

  const Int32Min: int := -0x8000_0000
  const Int32Max: int := 0x7FFF_FFFF

  // ---------------------------------------------------------------------------
  // Decimal digits (shared with the date parser)
  // ---------------------------------------------------------------------------

  /** An ASCII decimal digit; .NET number and date parsing accept no other digits. */
  predicate IsDigit(c: char) { '0' <= c <= '9' }

  predicate AllDigits(s: string) { forall i :: 0 <= i < |s| ==> IsDigit(s[i]) }

  function DigitValue(c: char): (v: nat)
    requires IsDigit(c)
    ensures v < 10
  {
    c as int - '0' as int
  }

  function DigitChar(v: nat): (c: char)
    requires v < 10
    ensures IsDigit(c) && DigitValue(c) == v
  {
    ('0' as int + v) as char
  }

  /** The number a run of decimal digits denotes, most significant digit first. */
  function DigitsValue(ds: string): nat
    requires AllDigits(ds)
  {
    if ds == [] then 0 else DigitsValue(ds[..|ds| - 1]) * 10 + DigitValue(ds[|ds| - 1])
  }

  /** Shortest decimal spelling of n (what Int32.ToString prints for a non-negative value). */
  function NatToDigits(n: nat): (s: string)
    ensures 0 < |s| && AllDigits(s)
    decreases n
  {
    if n < 10 then [DigitChar(n)] else NatToDigits(n / 10) + [DigitChar(n % 10)]
  }

  lemma {:induction false} NatToDigitsValue(n: nat)
    ensures DigitsValue(NatToDigits(n)) == n
    decreases n
  {
    if n >= 10 {
      var s := NatToDigits(n);
      assert s[..|s| - 1] == NatToDigits(n / 10);
      NatToDigitsValue(n / 10);
    }
  }

  function Pow10(w: nat): (p: nat)
    ensures 0 < p
  {
    if w == 0 then 1 else 10 * Pow10(w - 1)
  }

  /** n written with exactly w digits, zero-padded on the left (the "yyyy", "MM", "HH" printers). */
  function PadDigits(n: nat, w: nat): (s: string)
    ensures |s| == w && AllDigits(s)
  {
    if w == 0 then [] else PadDigits(n / 10, w - 1) + [DigitChar(n % 10)]
  }

  /** Zero-padded printing undoes reading: w digits print back as themselves. */
  lemma {:induction false} PadDigitsOfDigits(ds: string)
    requires AllDigits(ds)
    ensures PadDigits(DigitsValue(ds), |ds|) == ds
  {
    if ds != [] {
      var front, last := ds[..|ds| - 1], ds[|ds| - 1];
      PadDigitsOfDigits(front);
      var v := DigitsValue(ds);
      assert v == DigitsValue(front) * 10 + DigitValue(last);
      assert v / 10 == DigitsValue(front) && v % 10 == DigitValue(last);
      assert DigitChar(v % 10) == last;
      assert ds == front + [last];
    }
  }

  lemma {:induction false} PadDigitsValue(n: nat, w: nat)
    requires n < Pow10(w)
    ensures DigitsValue(PadDigits(n, w)) == n
  {
    if w > 0 {
      var s := PadDigits(n, w);
      var v: nat := w - 1;
      assert s[..|s| - 1] == PadDigits(n / 10, v);
      assert s[|s| - 1] == DigitChar(n % 10);
      assert Pow10(v + 1) == 10 * Pow10(v);
      DivBelow(n, Pow10(v));
      PadDigitsValue(n / 10, v);
      assert DigitsValue(s) == DigitsValue(PadDigits(n / 10, v)) * 10 + n % 10;
    }
  }

  lemma DivBelow(n: nat, p: nat)
    requires n < 10 * p
    ensures n / 10 < p && n / 10 * 10 + n % 10 == n
  {
  }

  /** Length of the run of digits at the front of s. */
  function DigitRun(s: string): (n: nat)
    ensures n <= |s| && AllDigits(s[..n])
    ensures n < |s| ==> !IsDigit(s[n])
  {
    if s != [] && IsDigit(s[0]) then
      var k := DigitRun(s[1..]);
      assert s[..k + 1] == [s[0]] + s[1..][..k];
      k + 1
    else 0
  }

  // ---------------------------------------------------------------------------
  // int.TryParse(string, out int) with NumberStyles.Integer
  // ---------------------------------------------------------------------------

  /** White space that NumberStyles.AllowLeadingWhite / AllowTrailingWhite skip: U+0009..U+000D and U+0020. */
  predicate IsNumberWhite(c: char) { c == ' ' || '\t' <= c <= '\r' }

  /** Length of the run of number white space at the front of s. */
  function WhiteRun(s: string): (n: nat)
    ensures n <= |s|
    ensures forall i :: 0 <= i < n ==> IsNumberWhite(s[i])
    ensures n < |s| ==> !IsNumberWhite(s[n])
  {
    if s != [] && IsNumberWhite(s[0]) then WhiteRun(s[1..]) + 1 else 0
  }

  predicate AllNul(s: string) { forall i :: 0 <= i < |s| ==> s[i] == '\0' }

  /** A character that can occur anywhere in text that int.TryParse accepts. */
  predicate IsIntegerTextChar(c: char)
  {
    IsDigit(c) || IsNumberWhite(c) || c == '+' || c == '-' || c == '\0'
  }

  /** The sign and the digits of a number that NumberStyles.Integer accepts, before the range check. */
  datatype IntegerText = IntegerText(negative: bool, digits: string)

  /**
   * Where the parts of a candidate number lie in the text: leading white space
   * in [0, lead), an optional sign in [lead, start), digits in [start, mid),
   * trailing white space in [mid, end), and whatever follows from end on.
   */
  datatype IntegerLayout = IntegerLayout(lead: nat, start: nat, mid: nat, end: nat)

  /** The longest leading white space, sign, digit run and trailing white space of s, in that order. */
  function LayoutOf(s: string): (l: IntegerLayout)
    ensures LayoutFacts(s, l)
    ensures l.lead < |s| ==> !IsNumberWhite(s[l.lead])
    ensures l.start == l.lead && l.lead < |s| ==> s[l.lead] != '-' && s[l.lead] != '+'
    ensures l.mid < |s| ==> !IsDigit(s[l.mid])
    ensures l.end < |s| ==> !IsNumberWhite(s[l.end])
  {
    var lead := WhiteRun(s);
    var start := if lead < |s| && (s[lead] == '-' || s[lead] == '+') then lead + 1 else lead;
    var mid := start + DigitRun(s[start..]);
    var end := mid + WhiteRun(s[mid..]);
    DigitsAt(s, start, mid - start);
    WhiteAt(s, mid, end - mid);
    SegmentsHold(s, IntegerLayout(lead, start, mid, end));
    IntegerLayout(lead, start, mid, end)
  }

  /** Each segment of l holds only what it should: white space, a sign, digits, white space. */
  predicate LayoutFacts(s: string, l: IntegerLayout)
  {
    l.lead <= l.start <= l.mid <= l.end <= |s| && l.start <= l.lead + 1
    && (forall i :: 0 <= i < l.lead ==> IsNumberWhite(s[i]))
    && (forall i :: l.lead <= i < l.start ==> s[i] == '-' || s[i] == '+')
    && (forall i :: l.start <= i < l.mid ==> IsDigit(s[i]))
    && (forall i :: l.mid <= i < l.end ==> IsNumberWhite(s[i]))
  }

  lemma SegmentsHold(s: string, l: IntegerLayout)
    requires l.lead <= l.start <= l.mid <= l.end <= |s| && l.start <= l.lead + 1
    requires forall i :: 0 <= i < l.lead ==> IsNumberWhite(s[i])
    requires l.start == l.lead + 1 ==> s[l.lead] == '-' || s[l.lead] == '+'
    requires forall i :: l.start <= i < l.mid ==> IsDigit(s[i])
    requires forall i :: l.mid <= i < l.end ==> IsNumberWhite(s[i])
    ensures LayoutFacts(s, l)
  {
  }

  lemma DigitsAt(s: string, start: nat, n: nat)
    requires start <= |s| && n == DigitRun(s[start..])
    ensures forall i :: start <= i < start + n ==> IsDigit(s[i])
    ensures start + n < |s| ==> !IsDigit(s[start + n])
  {
    assert start + n < |s| ==> s[start..][n] == s[start + n];
    var digits := s[start..][..n];
    assert AllDigits(digits);
    assert forall i :: start <= i < start + n ==> s[i] == digits[i - start];
  }

  lemma WhiteAt(s: string, start: nat, n: nat)
    requires start <= |s| && n == WhiteRun(s[start..])
    ensures forall i :: start <= i < start + n ==> IsNumberWhite(s[i])
    ensures start + n < |s| ==> !IsNumberWhite(s[start + n])
  {
    var white := s[start..];
    assert start + n < |s| ==> white[n] == s[start + n];
    assert forall i :: start <= i < start + n ==> s[i] == white[i - start];
  }

  /**
   * The syntax int.TryParse accepts: optional leading white space, an optional
   * sign, at least one digit, optional trailing white space followed only by
   * NUL characters.
   */
  function ScanInteger(s: string): (r: Option<IntegerText>)
    ensures r.Some? ==> r.value.digits != [] && AllDigits(r.value.digits) && |r.value.digits| <= |s|
    ensures r.Some? ==> r.value.digits == s[LayoutOf(s).start..LayoutOf(s).mid]
    ensures r.Some? && r.value.negative ==> '-' in s
  {
    var l := LayoutOf(s);
    if l.mid == l.start || !AllNul(s[l.end..]) then None
    else Some(IntegerText(l.start > l.lead && s[l.lead] == '-', s[l.start..l.mid]))
  }

  /** Nothing but number white space. */
  predicate AllNumberWhite(s: string) { forall i :: 0 <= i < |s| ==> IsNumberWhite(s[i]) }

  /** No part of l could be extended by the character that follows it. */
  predicate MaximalLayout(s: string, l: IntegerLayout)
  {
    (l.lead < |s| ==> !IsNumberWhite(s[l.lead]))
    && (l.start == l.lead && l.lead < |s| ==> s[l.lead] != '-' && s[l.lead] != '+')
    && (l.mid < |s| ==> !IsDigit(s[l.mid]))
    && (l.end < |s| ==> !IsNumberWhite(s[l.end]))
  }

  /** A text has one maximal layout: LayoutOf finds the only one. */
  lemma LayoutUnique(s: string, l: IntegerLayout)
    requires LayoutFacts(s, l) && MaximalLayout(s, l)
    ensures LayoutOf(s) == l
  {
    var m := LayoutOf(s);
    assert MaximalLayout(s, m);
  }

  /**
   * What NumberStyles.Integer reads from padded text: leading white space, an
   * optional '+' or '-', the digits, trailing white space and trailing NULs
   * scan as exactly that sign and those digits.
   */
  lemma ScanPadded(w1: string, sign: string, ds: string, w2: string, z: string)
    requires AllNumberWhite(w1) && AllNumberWhite(w2) && AllNul(z)
    requires sign == "" || sign == "+" || sign == "-"
    requires ds != [] && AllDigits(ds)
    ensures ScanInteger(w1 + sign + ds + w2 + z) == Some(IntegerText(sign == "-", ds))
  {
    var s := w1 + sign + ds + w2 + z;
    PaddedLayout(w1, sign, ds, w2, z);
    ScanLaidOut(s, IntegerLayout(|w1|, |w1| + |sign|, |w1| + |sign| + |ds|, |w1| + |sign| + |ds| + |w2|));
  }

  /**
   * The converse of ScanPadded: text that scans is padded text. It cuts, at
   * the bounds of its layout, into leading white space, an empty, "+" or "-"
   * sign, a non-empty digit run, trailing white space and NULs, and scans as
   * that sign and those digits. So "5-" and "1 2" do not scan.
   */
  lemma ScanAccepted(s: string)
    requires ScanInteger(s).Some?
    ensures var l := LayoutOf(s);
            var w1, sign, ds, w2, z := s[..l.lead], s[l.lead..l.start], s[l.start..l.mid], s[l.mid..l.end], s[l.end..];
            AllNumberWhite(w1) && AllNumberWhite(w2) && AllNul(z)
            && (sign == "" || sign == "+" || sign == "-")
            && ds != [] && AllDigits(ds)
            && s == w1 + sign + ds + w2 + z
            && ScanInteger(s) == Some(IntegerText(sign == "-", ds))
  {
    var l := LayoutOf(s);
    LayoutParts(s, l);
    var sign := s[l.lead..l.start];
    assert (l.start > l.lead && s[l.lead] == '-') <==> sign == "-";
  }

  /** The parts of text cut at the bounds of a layout. */
  lemma LayoutParts(s: string, l: IntegerLayout)
    requires LayoutFacts(s, l)
    ensures var w1, sign, ds, w2, z := s[..l.lead], s[l.lead..l.start], s[l.start..l.mid], s[l.mid..l.end], s[l.end..];
            AllNumberWhite(w1) && AllNumberWhite(w2)
            && (sign == "" || sign == "+" || sign == "-")
            && AllDigits(ds) && |ds| == l.mid - l.start
            && s == w1 + sign + ds + w2 + z
            && ((l.start > l.lead && s[l.lead] == '-') <==> sign == "-")
  {
    var w1, sign, ds, w2, z := s[..l.lead], s[l.lead..l.start], s[l.start..l.mid], s[l.mid..l.end], s[l.end..];
    assert forall i :: 0 <= i < |w1| ==> w1[i] == s[i];
    assert forall i :: 0 <= i < |ds| ==> ds[i] == s[l.start + i];
    assert forall i :: 0 <= i < |w2| ==> w2[i] == s[l.mid + i];
    if l.start > l.lead {
      assert |sign| == 1 && sign[0] == s[l.lead];
      assert sign == [s[l.lead]];
    } else {
      assert sign == "";
    }
    CutFive(s, l.lead, l.start, l.mid, l.end);
  }

  /** Text is the concatenation of its slices at four ordered cut points. */
  lemma CutFive(s: string, a: nat, b: nat, c: nat, d: nat)
    requires a <= b <= c <= d <= |s|
    ensures s == s[..a] + s[a..b] + s[b..c] + s[c..d] + s[d..]
  {
    assert s[c..] == s[c..d] + s[d..];
    assert s[b..] == s[b..c] + s[c..];
    assert s[a..] == s[a..b] + s[b..];
    assert s == s[..a] + s[a..];
  }

  /** Text laid out with a non-empty digit run and only NULs after its trailing white space scans as that run. */
  lemma ScanLaidOut(s: string, l: IntegerLayout)
    requires LayoutFacts(s, l) && MaximalLayout(s, l) && l.start < l.mid && AllNul(s[l.end..])
    ensures ScanInteger(s) == Some(IntegerText(l.start > l.lead && s[l.lead] == '-', s[l.start..l.mid]))
  {
    LayoutUnique(s, l);
  }

  /** The maximal layout of padded text. */
  lemma PaddedLayout(w1: string, sign: string, ds: string, w2: string, z: string)
    requires AllNumberWhite(w1) && AllNumberWhite(w2) && AllNul(z)
    requires sign == "" || sign == "+" || sign == "-"
    requires ds != [] && AllDigits(ds)
    ensures var s := w1 + sign + ds + w2 + z;
            var l := IntegerLayout(|w1|, |w1| + |sign|, |w1| + |sign| + |ds|, |w1| + |sign| + |ds| + |w2|);
            LayoutFacts(s, l) && MaximalLayout(s, l) && l.start < l.mid && AllNul(s[l.end..])
            && s[l.start..l.mid] == ds && ((l.start > l.lead && s[l.lead] == '-') <==> sign == "-")
  {
    var s := w1 + sign + ds + w2 + z;
    var a := |w1|;
    var b := a + |sign|;
    var c := b + |ds|;
    var d := c + |w2|;
    var l := IntegerLayout(a, b, c, d);
    PaddedParts(w1, sign, ds, w2, z);
    SegmentsHold(s, l);
    assert MaximalLayout(s, l);
    assert s[d..] == z;
    assert s[b..c] == ds;
  }

  /** Where the parts of padded text lie, character by character. */
  lemma PaddedParts(w1: string, sign: string, ds: string, w2: string, z: string)
    requires AllNumberWhite(w1) && AllNumberWhite(w2) && AllNul(z)
    requires sign == "" || sign == "+" || sign == "-"
    requires ds != [] && AllDigits(ds)
    ensures var s := w1 + sign + ds + w2 + z;
            var a, b := |w1|, |w1| + |sign|;
            var c := b + |ds|;
            var d := c + |w2|;
            |s| == d + |z|
            && (forall i :: 0 <= i < a ==> IsNumberWhite(s[i]))
            && (b == a + 1 ==> s[a] == sign[0])
            && (forall i :: b <= i < c ==> IsDigit(s[i]))
            && (forall i :: c <= i < d ==> IsNumberWhite(s[i]))
            && (forall i :: d <= i < |s| ==> s[i] == '\0')
            && s[b] == ds[0]
  {
    var s := w1 + sign + ds + w2 + z;
    var a, b := |w1|, |w1| + |sign|;
    var c := b + |ds|;
    var d := c + |w2|;
    assert forall i :: 0 <= i < a ==> s[i] == w1[i];
    assert forall i :: b <= i < c ==> s[i] == ds[i - b];
    assert forall i :: c <= i < d ==> s[i] == w2[i - c];
    assert forall i :: d <= i < |s| ==> s[i] == z[i - d];
  }

  /** The signed value of scanned text, if it fits in 32 bits (an overflow fails, it does not wrap around). */
  function Int32Of(text: IntegerText): (r: Option<int>)
    requires AllDigits(text.digits)
    ensures r.Some? ==> Int32Min <= r.value <= Int32Max
    ensures r.Some? ==> (if text.negative then -r.value else r.value) == DigitsValue(text.digits)
    ensures r.None? ==> DigitsValue(text.digits) > (if text.negative then -Int32Min else Int32Max)
  {
    var magnitude: int := DigitsValue(text.digits);
    var v := if text.negative then -magnitude else magnitude;
    if Int32Min <= v <= Int32Max then Some(v) else None
  }

  /** int.TryParse: the syntax of ScanInteger, and the signed value must fit in 32 bits. */
  function ParseInt32(s: string): (r: Option<int>)
    ensures r.Some? ==> Int32Min <= r.value <= Int32Max
  {
    match ScanInteger(s)
    case None => None
    case Some(text) => Int32Of(text)
  }

  /** Text that int.TryParse accepts holds nothing but white space, signs, digits and NULs. */
  lemma ParseInt32Alphabet(s: string)
    requires ParseInt32(s).Some?
    ensures forall i :: 0 <= i < |s| ==> IsIntegerTextChar(s[i])
  {
    var l := LayoutOf(s);
    var nuls := s[l.end..];
    assert AllNul(nuls);
    assert forall i :: l.end <= i < |s| ==> s[i] == nuls[i - l.end];
  }

  /** A run of digits at least as long as n+1 is worth at least its leading digit times 10^n. */
  lemma {:induction false} DigitsValueAtLeast(s: string)
    requires s != [] && AllDigits(s)
    ensures DigitsValue(s) >= DigitValue(s[0]) * Pow10(|s| - 1)
  {
    if |s| > 1 {
      var front := s[..|s| - 1];
      assert front[0] == s[0];
      DigitsValueAtLeast(front);
      var w: nat := |s| - 2;
      assert DigitsValue(s) >= DigitsValue(front) * 10;
      ScaleByTen(DigitsValue(front), DigitValue(s[0]), Pow10(w));
      assert Pow10(w + 1) == 10 * Pow10(w);
    }
  }

  lemma ScaleByTen(a: int, lead: nat, p: nat)
    requires a >= lead * p
    ensures a * 10 >= lead * (10 * p)
  {
  }

  /** Plain digits denoting a number above Int32.MaxValue are rejected (an overflow, not a wrap-around). */
  lemma ParseInt32RejectsLarge(s: string)
    requires s != [] && AllDigits(s) && DigitsValue(s) > Int32Max
    ensures ParseInt32(s) == None
  {
    assert [] + s == s;
    ScanNumeral([], s);
  }

  /** A digit run, signed with a minus or not signed at all, scans as exactly that sign and those digits. */
  lemma ScanNumeral(sign: string, ds: string)
    requires (sign == [] || sign == ['-']) && ds != [] && AllDigits(ds)
    ensures ScanInteger(sign + ds) == Some(IntegerText(sign != [], ds))
  {
    assert "" + sign + ds + "" + "" == sign + ds;
    ScanPadded("", sign, ds, "", "");
  }

  /** int.TryParse on padded, optionally signed text: the range check of Int32Of on exactly that sign and those digits. */
  lemma ParsePadded(w1: string, sign: string, ds: string, w2: string, z: string)
    requires AllNumberWhite(w1) && AllNumberWhite(w2) && AllNul(z)
    requires sign == "" || sign == "+" || sign == "-"
    requires ds != [] && AllDigits(ds)
    ensures ParseInt32(w1 + sign + ds + w2 + z) == Int32Of(IntegerText(sign == "-", ds))
  {
    ScanPadded(w1, sign, ds, w2, z);
  }

  /** Text that int.TryParse accepts is padded text, and the number is its signed digit value. */
  lemma ParseAccepted(s: string)
    requires ParseInt32(s).Some?
    ensures var l := LayoutOf(s);
            var w1, sign, ds, w2, z := s[..l.lead], s[l.lead..l.start], s[l.start..l.mid], s[l.mid..l.end], s[l.end..];
            AllNumberWhite(w1) && AllNumberWhite(w2) && AllNul(z)
            && (sign == "" || sign == "+" || sign == "-")
            && ds != [] && AllDigits(ds)
            && s == w1 + sign + ds + w2 + z
            && ParseInt32(s).value == if sign == "-" then -(DigitsValue(ds) as int) else DigitsValue(ds)
  {
    ScanAccepted(s);
  }

  lemma Int32OfInRange(negative: bool, ds: string)
    requires AllDigits(ds)
    requires Int32Min <= (if negative then -(DigitsValue(ds) as int) else DigitsValue(ds)) <= Int32Max
    ensures Int32Of(IntegerText(negative, ds)) == Some(if negative then -(DigitsValue(ds) as int) else DigitsValue(ds))
  {
  }

  /** Ten nines, as in "9999999999", exceed Int32.MaxValue. */
  lemma TenNinesTooLarge()
    ensures AllDigits("9999999999") && DigitsValue("9999999999") > Int32Max
  {
    assert Pow10(9) == 1000000000;
    DigitsValueAtLeast("9999999999");
  }

  /** Int32.ToString() under the invariant culture. */
  function FormatInt32(v: int): (s: string)
  {
    if v < 0 then "-" + NatToDigits(-v) else NatToDigits(v)
  }

  /** Every 32-bit integer, printed, parses back to itself. */
  lemma ParseFormatInt32(v: int)
    requires Int32Min <= v <= Int32Max
    ensures ParseInt32(FormatInt32(v)) == Some(v)
  {
    var m: nat := if v < 0 then -v else v;
    var ds := NatToDigits(m);
    NatToDigitsValue(m);
    var sign := if v < 0 then ['-'] else [];
    assert FormatInt32(v) == sign + ds;
    ScanNumeral(sign, ds);
    ParseScanned(sign + ds, v < 0, ds, m);
  }

  /** Scanned digits within the 32-bit range parse to their signed value. */
  lemma ParseScanned(s: string, negative: bool, ds: string, m: nat)
    requires ScanInteger(s) == Some(IntegerText(negative, ds))
    requires AllDigits(ds) && DigitsValue(ds) == m
    requires if negative then m <= -Int32Min else m <= Int32Max
    ensures ParseInt32(s) == Some(if negative then -(m as int) else m as int)
  {
  }

  lemma {:induction false} DigitRunAll(s: string)
    requires AllDigits(s)
    ensures DigitRun(s) == |s|
  {
    if s != [] {
      DigitRunAll(s[1..]);
    }
  }

  // ---------------------------------------------------------------------------
  // bool.TryParse(string, out bool)
  // ---------------------------------------------------------------------------

  /** char.IsWhiteSpace: the Latin-1 spaces and the Unicode separator categories Zs, Zl, Zp. */
  predicate IsWhiteSpace(c: char)
  {
    ('\t' <= c <= '\r') || c == ' ' || c == '\U{85}' || c == '\U{A0}' || c == '\U{1680}'
    || ('\U{2000}' <= c <= '\U{200A}') || c == '\U{2028}' || c == '\U{2029}' || c == '\U{202F}'
    || c == '\U{205F}' || c == '\U{3000}'
  }

  /** What bool.TryParse strips from both ends before its second comparison. */
  predicate IsTrimmable(c: char) { IsWhiteSpace(c) || c == '\0' }

  predicate AllTrimmable(s: string) { forall i :: 0 <= i < |s| ==> IsTrimmable(s[i]) }

  function TrimStart(s: string): (r: string)
    ensures |r| <= |s|
    ensures r != [] ==> !IsTrimmable(r[0])
  {
    if s != [] && IsTrimmable(s[0]) then TrimStart(s[1..]) else s
  }

  function TrimEnd(s: string): (r: string)
    ensures |r| <= |s|
    ensures r != [] ==> !IsTrimmable(r[|r| - 1])
  {
    if s != [] && IsTrimmable(s[|s| - 1]) then TrimEnd(s[..|s| - 1]) else s
  }

  function Trim(s: string): string { TrimEnd(TrimStart(s)) }

  /** The ASCII case fold that bool.TryParse applies ((c | 0x20) on the letters of "true" and "false"). */
  function ToLowerAscii(c: char): char
  {
    if 'A' <= c <= 'Z' then (c as int + 32) as char else c
  }

  predicate EqualsIgnoreCase(a: string, b: string)
  {
    |a| == |b| && forall i :: 0 <= i < |a| ==> ToLowerAscii(a[i]) == ToLowerAscii(b[i])
  }

  /** Boolean.ToString(): "True" or "False". */
  function FormatBoolean(b: bool): string
  {
    if b then "True" else "False"
  }

  /**
   * bool.TryParse: the text, stripped of white space and NUL characters at both
   * ends, must be "true" or "false" in any mix of letter case.
   */
  function ParseBoolean(s: string): (r: Option<bool>)
    ensures r.Some? ==> EqualsIgnoreCase(Trim(s), FormatBoolean(r.value))
    ensures r.None? ==>
              !EqualsIgnoreCase(Trim(s), FormatBoolean(true)) && !EqualsIgnoreCase(Trim(s), FormatBoolean(false))
  {
    var t := Trim(s);
    if EqualsIgnoreCase(t, "true") then Some(true)
    else if EqualsIgnoreCase(t, "false") then Some(false)
    else None
  }

  /** Text equal, ignoring ASCII letter case, to "True" or "False" parses to that value. */
  lemma ParseBooleanIgnoresCase(s: string, b: bool)
    requires EqualsIgnoreCase(s, FormatBoolean(b))
    ensures ParseBoolean(s) == Some(b)
  {
    assert !IsTrimmable(s[0]) && !IsTrimmable(s[|s| - 1]);
    assert TrimStart(s) == s;
    ParseTrimmed(s, s, b);
  }

  /** What is left after trimming decides the result. */
  lemma ParseTrimmed(x: string, s: string, b: bool)
    requires Trim(x) == s && EqualsIgnoreCase(s, FormatBoolean(b))
    ensures ParseBoolean(x) == Some(b)
  {
  }

  lemma {:induction false} TrimStartSkips(w: string, y: string)
    requires AllTrimmable(w)
    ensures TrimStart(w + y) == TrimStart(y)
  {
    if w != [] {
      assert (w + y)[0] == w[0];
      assert (w + y)[1..] == w[1..] + y;
      assert IsTrimmable(w[0]);
      assert TrimStart(w + y) == TrimStart(w[1..] + y);
      assert AllTrimmable(w[1..]) by {
        forall i | 0 <= i < |w[1..]| ensures IsTrimmable(w[1..][i]) { assert w[1..][i] == w[i + 1]; }
      }
      TrimStartSkips(w[1..], y);
    } else {
      assert w + y == y;
    }
  }

  lemma {:induction false} TrimEndSkips(y: string, w: string)
    requires AllTrimmable(w)
    ensures TrimEnd(y + w) == TrimEnd(y)
  {
    if w != [] {
      assert (y + w)[|y + w| - 1] == w[|w| - 1];
      assert (y + w)[..|y + w| - 1] == y + w[..|w| - 1];
      assert IsTrimmable(w[|w| - 1]);
      assert TrimEnd(y + w) == TrimEnd(y + w[..|w| - 1]);
      var front := w[..|w| - 1];
      assert AllTrimmable(front) by {
        forall i | 0 <= i < |front| ensures IsTrimmable(front[i]) { assert front[i] == w[i]; }
      }
      TrimEndSkips(y, w[..|w| - 1]);
    } else {
      assert y + w == y;
    }
  }

  /** Surrounding white space and NULs are ignored: "  TRUE\0" parses like "true". */
  lemma ParseBooleanIgnoresPadding(before: string, s: string, after: string, b: bool)
    requires AllTrimmable(before) && AllTrimmable(after)
    requires EqualsIgnoreCase(s, FormatBoolean(b))
    ensures ParseBoolean(before + s + after) == Some(b)
  {
    assert !IsTrimmable(s[0]) && !IsTrimmable(s[|s| - 1]);
    TrimPadded(before, s, after);
    ParseTrimmed(before + s + after, s, b);
  }

  /** Trimming removes exactly the padding around text that starts and ends with something kept. */
  lemma TrimPadded(before: string, s: string, after: string)
    requires AllTrimmable(before) && AllTrimmable(after)
    requires s != [] && !IsTrimmable(s[0]) && !IsTrimmable(s[|s| - 1])
    ensures Trim(before + s + after) == s
  {
    TrimStartSkips(before, s + after);
    assert before + s + after == before + (s + after);
    assert (s + after)[0] == s[0];
    assert TrimStart(s + after) == s + after;
    TrimEndSkips(s, after);
    assert TrimEnd(s) == s;
  }

  /** Boolean.ToString output parses back to the same value. */
  lemma ParseFormatBoolean(b: bool)
    ensures ParseBoolean(FormatBoolean(b)) == Some(b)
  {
    ParseBooleanIgnoresCase(FormatBoolean(b), b);
  }
}

=== FILE: scenarios.dfy ===
/**
 * The sample appsettings document of the unit tests and further substitutions
 * into it, stated about the model.
 */
module Scenarios {
  import opened Options
  import opened Json
  import opened VarSub
  import Dates
  import Parsers
  import JsonPath

  const ApplicationDbText := "server=localhost;port=4321;username=devuser;password=devsarecool123"
  const ServiceBusText := "Endpoint=devenv.cloudservice.com;SharedSecret=KJSDLKFJSDFKJSDL;Port=1234"

  /** The sample document with the given values in ConnectionStrings.Cdn and Environment. */
  function Sample(cdn: Token, environment: Token): Token
  {
    Object([
      Property("ConnectionStrings", Object([
        Property("ApplicationDb", String(ApplicationDbText)),
        Property("ServiceBus", String(ServiceBusText)),
        Property("Cdn", cdn)])),
      Property("Environment", environment)])
  }

  function SampleWithCdn(cdn: Token): Token { Sample(cdn, String("DEV")) }

  /** The document the tests load. */
  function SampleDocument(): Token { SampleWithCdn(String("devenv.mycdn.com")) }

  const CdnPath := "ConnectionStrings.Cdn"

  lemma SampleWellFormed(cdn: Token)
    requires WellFormed(cdn)
    ensures WellFormed(SampleWithCdn(cdn))
  {
    var inner := [
      Property("ApplicationDb", String(ApplicationDbText)),
      Property("ServiceBus", String(ServiceBusText)),
      Property("Cdn", cdn)];
    assert "ApplicationDb"[0] != "ServiceBus"[0] && "ApplicationDb"[0] != "Cdn"[0] && "ServiceBus"[0] != "Cdn"[0];
    assert DistinctNames(inner);
    assert WellFormed(Object(inner));
    assert "ConnectionStrings"[0] != "Environment"[0];
  }

  /** "ConnectionStrings.Cdn" is a dotted path through two members. */
  lemma CdnSegments()
    ensures JsonPath.IsDottedPath(CdnPath)
    ensures JsonPath.Segments(CdnPath) == ["ConnectionStrings", "Cdn"]
  {
    var segments := ["ConnectionStrings", "Cdn"];
    assert JsonPath.Join(segments[1..]) == "Cdn";
    assert JsonPath.Join(segments) == "ConnectionStrings" + "." + "Cdn";
    assert "ConnectionStrings" + "." + "Cdn" == CdnPath;
    LetterName("ConnectionStrings");
    LetterName("Cdn");
    JsonPath.SplitJoin(segments);
  }

  /** The members of ConnectionStrings in the sample, with the given value in Cdn. */
  function ConnectionStrings(cdn: Token): seq<Property>
  {
    SampleWithCdn(cdn).properties[0].value.properties
  }

  lemma SampleIndexes(cdn: Token)
    ensures IndexOf(SampleWithCdn(cdn).properties, "ConnectionStrings") == Some(0)
    ensures IndexOf(ConnectionStrings(cdn), "Cdn") == Some(2)
  {
    var inner := ConnectionStrings(cdn);
    assert "Cdn" != "ApplicationDb" by { assert "Cdn"[0] != "ApplicationDb"[0]; }
    assert "Cdn" != "ServiceBus" by { assert "Cdn"[0] != "ServiceBus"[0]; }
    assert IndexOf(inner[2..], "Cdn") == Some(0);
    assert inner[1..][1..] == inner[2..];
    assert IndexOf(inner[1..], "Cdn") == Some(1);
  }

  /** Substituting at ConnectionStrings.Cdn rewrites that one string and nothing else. */
  lemma CdnSubstitution(cdn: Token)
    ensures Lookup(SampleWithCdn(cdn), ["ConnectionStrings", "Cdn"]) == Some(cdn)
    ensures ReplaceAt(SampleDocument(), ["ConnectionStrings", "Cdn"], cdn) == SampleWithCdn(cdn)
  {
    var path := ["ConnectionStrings", "Cdn"];
    SampleIndexes(cdn);
    SampleIndexes(String("devenv.mycdn.com"));
    assert path[1..] == ["Cdn"] && path[1..][1..] == [];
    var before := ConnectionStrings(String("devenv.mycdn.com"));
    assert before[2 := Property("Cdn", cdn)] == ConnectionStrings(cdn);
  }

  predicate IsLetter(c: char) { 'a' <= c <= 'z' || 'A' <= c <= 'Z' }

  /** A name made of letters is a plain member name. */
  lemma LetterName(name: string)
    requires name != [] && forall i :: 0 <= i < |name| ==> IsLetter(name[i])
    ensures JsonPath.IsPlainName(name)
  {
    assert name[0] != "*"[0];
  }

  /** Such a name alone is a one-segment dotted path. */
  lemma LetterPath(name: string)
    requires name != [] && forall i :: 0 <= i < |name| ==> IsLetter(name[i])
    ensures JsonPath.IsDottedPath(name) && JsonPath.Segments(name) == [name]
  {
    LetterName(name);
    JsonPath.SplitJoin([name]);
  }

  /** A member the sample's root does not have is not found, whatever the members hold. */
  lemma MissingNotFound(ps: seq<Property>)
    requires |ps| == 2 && ps[0].name == "ConnectionStrings" && ps[1].name == "Environment"
    ensures Lookup(Object(ps), ["Missing"]).None?
  {
    assert "Missing" != "ConnectionStrings" by { assert "Missing"[0] != "ConnectionStrings"[0]; }
    assert "Missing" != "Environment" by { assert "Missing"[0] != "Environment"[0]; }
    assert IndexOf(ps[1..][1..], "Missing") == None;
    assert IndexOf(ps[1..], "Missing") == None;
  }

  /** The one-segment path "Environment" reads and replaces the second top-level member. */
  lemma EnvironmentPath(cdn: Token, environment: Token, v: Token)
    ensures Lookup(Sample(cdn, environment), ["Environment"]) == Some(environment)
    ensures ReplaceAt(Sample(cdn, environment), ["Environment"], v) == Sample(cdn, v)
  {
    var ps := Sample(cdn, environment).properties;
    assert "Environment" != "ConnectionStrings" by { assert "Environment"[0] != "ConnectionStrings"[0]; }
    assert IndexOf(ps[1..], "Environment") == Some(0);
    assert ["Environment"][1..] == [];
  }

  // ---------------------------------------------------------------------------
  // The unit tests, as clients of Subber
  // ---------------------------------------------------------------------------

  /** SubberLoadsJson: loading the sample sets IsLoaded. */
  method SubberLoadsJson(tryParseDouble: DoubleParser) returns (loaded: bool)
    ensures loaded
  {
    var subber := new Subber(tryParseDouble);
    SampleWellFormed(String("devenv.mycdn.com"));
    subber.ReadDocument(Parsed(SampleDocument()));
    loaded := subber.IsLoaded;
  }

  /** SubstitutionHappens: Cdn reads the new text and every other member keeps its content. */
  method SubstitutionHappens(tryParseDouble: DoubleParser) returns (outcome: SubOutcome, document: Option<Token>)
    ensures outcome == Substituted
    ensures document == Some(SampleWithCdn(String("test.cdn.com")))
  {
    var subber := new Subber(tryParseDouble);
    SampleWellFormed(String("devenv.mycdn.com"));
    subber.ReadDocument(Parsed(SampleDocument()));
    CdnSegments();
    CdnSubOutcome(tryParseDouble);
    outcome := subber.Sub(CdnPath, "test.cdn.com");
    document := subber.document;
  }

  /** What Sub("ConnectionStrings.Cdn", "test.cdn.com") finds in the sample and what it leaves there. */
  lemma CdnSubOutcome(tryParseDouble: DoubleParser)
    ensures Lookup(SampleDocument(), ["ConnectionStrings", "Cdn"]) == Some(String("devenv.mycdn.com"))
    ensures ReplaceAt(SampleDocument(), ["ConnectionStrings", "Cdn"],
              ConvertSimpleTypes(String("devenv.mycdn.com"), "test.cdn.com", tryParseDouble))
            == SampleWithCdn(String("test.cdn.com"))
  {
    CdnSubstitution(String("devenv.mycdn.com"));
    CdnSubstitution(String("test.cdn.com"));
    OtherTypesTakeTextVerbatim(String("devenv.mycdn.com"), "test.cdn.com", tryParseDouble);
  }

  /** A one-segment path addresses a top-level member. */
  method SubTopLevel(tryParseDouble: DoubleParser) returns (outcome: SubOutcome, document: Option<Token>)
    ensures outcome == Substituted
    ensures document == Some(Sample(String("devenv.mycdn.com"), String("PROD")))
  {
    var subber := new Subber(tryParseDouble);
    SampleWellFormed(String("devenv.mycdn.com"));
    subber.ReadDocument(Parsed(SampleDocument()));
    LetterPath("Environment");
    EnvironmentSubOutcome(tryParseDouble);
    outcome := subber.Sub("Environment", "PROD");
    document := subber.document;
  }

  /** What Sub("Environment", "PROD") finds in the sample and what it leaves there. */
  lemma EnvironmentSubOutcome(tryParseDouble: DoubleParser)
    ensures Lookup(SampleDocument(), ["Environment"]) == Some(String("DEV"))
    ensures ReplaceAt(SampleDocument(), ["Environment"],
              ConvertSimpleTypes(String("DEV"), "PROD", tryParseDouble))
            == Sample(String("devenv.mycdn.com"), String("PROD"))
  {
    EnvironmentPath(String("devenv.mycdn.com"), String("DEV"), String("PROD"));
    OtherTypesTakeTextVerbatim(String("DEV"), "PROD", tryParseDouble);
  }

  /** A member the document does not have is a warning, and the document stays as loaded. */
  method SubMissing(tryParseDouble: DoubleParser) returns (outcome: SubOutcome, document: Option<Token>)
    ensures outcome == PathNotFound
    ensures document == Some(SampleDocument())
  {
    var subber := new Subber(tryParseDouble);
    SampleWellFormed(String("devenv.mycdn.com"));
    subber.ReadDocument(Parsed(SampleDocument()));
    LetterPath("Missing");
    MissingNotFound(SampleDocument().properties);
    outcome := subber.Sub("Missing", "anything");
    document := subber.document;
  }

  /** Sub before any document is loaded throws and changes nothing. */
  method SubBeforeLoad(tryParseDouble: DoubleParser) returns (outcome: SubOutcome, loaded: bool, document: Option<Token>)
    ensures outcome == InvalidOperation(NotLoadedMessage)
    ensures !loaded && document == None
  {
    var subber := new Subber(tryParseDouble);
    CdnSegments();
    outcome := subber.Sub(CdnPath, "test.cdn.com");
    loaded, document := subber.IsLoaded, subber.document;
  }

  // ---------------------------------------------------------------------------
  // Coercion of the three typed scenarios
  // ---------------------------------------------------------------------------

  /** "Port": 1234 given "5678" becomes the integer 5678. */
  lemma PortTakesInteger(tryParseDouble: DoubleParser)
    ensures ConvertSimpleTypes(Integer(1234), "5678", tryParseDouble) == Integer(5678)
  {
    assert Parsers.FormatInt32(5678) == "5678";
    IntegerStaysInteger(Integer(1234), 5678, tryParseDouble);
  }

  /** "Port": 1234 given " -42\t" followed by a NUL becomes the integer -42: padding, a sign and trailing NULs are allowed. */
  lemma PortTakesPaddedInteger(tryParseDouble: DoubleParser)
    ensures ConvertSimpleTypes(Integer(1234), " -42\t\0", tryParseDouble) == Integer(-42)
  {
    assert Parsers.DigitsValue("42") == 42;
    assert " -42\t\0" == " " + "-" + "42" + "\t" + "\0";
    IntegerTakesPaddedText(Integer(1234), " ", "-", "42", "\t", "\0", tryParseDouble);
  }

  /** "Port": 1234 given "abc" becomes the string "abc". */
  lemma PortFallsBackToString(tryParseDouble: DoubleParser)
    ensures ConvertSimpleTypes(Integer(1234), "abc", tryParseDouble) == String("abc")
  {
    assert !Parsers.IsIntegerTextChar("abc"[0]);
    IntegerFallsBackToString(Integer(1234), "abc", 0, tryParseDouble);
  }

  /** "Port": 1234 given "1.5" or "9999999999" becomes a string node, never a float. */
  lemma PortRejectsFractionAndOverflow(tryParseDouble: DoubleParser)
    ensures ConvertSimpleTypes(Integer(1234), "1.5", tryParseDouble) == String("1.5")
    ensures ConvertSimpleTypes(Integer(1234), "9999999999", tryParseDouble) == String("9999999999")
  {
    assert !Parsers.IsIntegerTextChar("1.5"[1]);
    IntegerFallsBackToString(Integer(1234), "1.5", 1, tryParseDouble);
    Parsers.TenNinesTooLarge();
    IntegerOutOfRange(Integer(1234), "9999999999", tryParseDouble);
  }

  /** A boolean slot given " TRUE " becomes true; given "yes" it becomes the string "yes". */
  lemma FlagScenarios(flag: bool, tryParseDouble: DoubleParser)
    ensures ConvertSimpleTypes(Boolean(flag), " TRUE ", tryParseDouble) == Boolean(true)
    ensures ConvertSimpleTypes(Boolean(flag), "yes", tryParseDouble) == String("yes")
  {
    FlagPadded(flag, tryParseDouble);
    FlagOtherWord(flag, tryParseDouble);
  }

  lemma FlagPadded(flag: bool, tryParseDouble: DoubleParser)
    ensures ConvertSimpleTypes(Boolean(flag), " TRUE ", tryParseDouble) == Boolean(true)
  {
    assert Parsers.AllTrimmable(" ") by { assert Parsers.IsWhiteSpace(' '); }
    assert Parsers.EqualsIgnoreCase("TRUE", Parsers.FormatBoolean(true));
    assert " " + "TRUE" + " " == " TRUE ";
    BooleanStaysBoolean(Boolean(flag), " ", "TRUE", " ", true, tryParseDouble);
  }

  lemma FlagOtherWord(flag: bool, tryParseDouble: DoubleParser)
    ensures ConvertSimpleTypes(Boolean(flag), "yes", tryParseDouble) == String("yes")
  {
    assert !Parsers.IsTrimmable('y') && !Parsers.IsTrimmable('s');
    assert Parsers.TrimStart("yes") == "yes";
    assert Parsers.Trim("yes") == "yes";
    BooleanFallsBackToString(Boolean(flag), "yes", tryParseDouble);
  }

  /** The moment of the date scenario: 15 June 2021, 08:30:00 at UTC+02:00. */
  const ScenarioMoment := Dates.DateTime(2021, 6, 15, 8, 30, 0, Dates.Offset(Dates.Plus, 2, 0))

  lemma ScenarioFields()
    ensures Parsers.PadDigits(2021, 4) == "2021"
    ensures Parsers.PadDigits(6, 2) == "06" && Parsers.PadDigits(15, 2) == "15"
    ensures Parsers.PadDigits(8, 2) == "08" && Parsers.PadDigits(30, 2) == "30"
    ensures Parsers.PadDigits(0, 2) == "00" && Parsers.PadDigits(2, 2) == "02"
  {
    ScenarioYear();
    PadTwo(6, '0', '6');
    PadTwo(15, '1', '5');
    PadTwo(8, '0', '8');
    PadTwo(30, '3', '0');
    PadTwo(0, '0', '0');
    PadTwo(2, '0', '2');
  }

  lemma ScenarioYear()
    ensures Parsers.PadDigits(2021, 4) == "2021"
  {
    assert 2021 / 10 == 202 && 2021 % 10 == 1 && 202 / 10 == 20 && 202 % 10 == 2;
    assert Parsers.DigitChar(1) == '1' && Parsers.DigitChar(2) == '2';
    assert Parsers.PadDigits(2021, 4) == Parsers.PadDigits(202, 3) + "1";
    assert Parsers.PadDigits(202, 3) == Parsers.PadDigits(20, 2) + "2";
    PadTwo(20, '2', '0');
  }

  lemma PadTwo(n: nat, tens: char, ones: char)
    requires n < 100 && tens == Parsers.DigitChar(n / 10) && ones == Parsers.DigitChar(n % 10)
    ensures Parsers.PadDigits(n, 2) == [tens, ones]
  {
    assert Parsers.PadDigits(n / 10, 1) == [tens];
  }

  lemma JoinTimestamp(year: string, month: string, day: string, hour: string, minute: string, second: string,
                      sign: char, hours: string, minutes: string)
    requires year == "2021" && month == "06" && day == "15"
    requires hour == "08" && minute == "30" && second == "00" && sign == '+' && hours == "02" && minutes == "00"
    ensures (year + "-" + month + "-" + day) + "T" + (hour + ":" + minute + ":" + second)
            + ([sign] + hours + ":" + minutes) == "2021-06-15T08:30:00+02:00"
  {
  }

  /** ScenarioMoment printed with the extended "zzz" pattern. */
  lemma ScenarioText(k: nat)
    requires k < |Dates.Formats| && Dates.LayoutAt(k) == Dates.Extended
    requires Dates.PrecisionAt(k) == Dates.Seconds && Dates.ZoneAt(k) == Dates.OffsetWithMinutes
    ensures Dates.Tokenize(Dates.Formats[k]).Some?
    ensures Dates.FormatExact(Dates.Formats[k], ScenarioMoment) == "2021-06-15T08:30:00+02:00"
  {
    Dates.FormatExtendedOffset(k, ScenarioMoment);
    ScenarioFields();
    JoinTimestamp(Parsers.PadDigits(2021, 4), Parsers.PadDigits(6, 2), Parsers.PadDigits(15, 2),
                  Parsers.PadDigits(8, 2), Parsers.PadDigits(30, 2), Parsers.PadDigits(0, 2),
                  Dates.SignChar(Dates.Plus), Parsers.PadDigits(2, 2), Parsers.PadDigits(0, 2));
  }

  /** A date slot given "2021-06-15T08:30:00+02:00" holds that moment with its offset. */
  lemma DateTakesOffsetTimestamp(before: Dates.DateTime, tryParseDouble: DoubleParser)
    ensures ConvertSimpleTypes(Date(before), "2021-06-15T08:30:00+02:00", tryParseDouble) == Date(ScenarioMoment)
  {
    assert Dates.ValidDateTime(ScenarioMoment);
    DateExtendedOffset(Date(before), ScenarioMoment, tryParseDouble);
    ScenarioText(3);
  }

  /** A date slot given "tomorrow" becomes the string "tomorrow": no pattern reads a year from it. */
  lemma DateFallsBackOnWord(before: Dates.DateTime, tryParseDouble: DoubleParser)
    ensures ConvertSimpleTypes(Date(before), "tomorrow", tryParseDouble) == String("tomorrow")
  {
    assert !Parsers.IsDigit("tomorrow"[..4][0]);
    forall k | 0 <= k < |Dates.Formats|
      ensures Dates.ParseExact(Dates.Formats[k], "tomorrow").None?
    {
      Dates.YearFirst(k, "tomorrow");
    }
    DateFallsBackToString(Date(before), "tomorrow", tryParseDouble);
  }

  /** A document holding one member, "Port". */
  function PortDocument(port: Token): Token { Object([Property("Port", port)]) }

  lemma PortPath(port: Token, v: Token)
    ensures Lookup(PortDocument(port), ["Port"]) == Some(port)
    ensures ReplaceAt(PortDocument(port), ["Port"], v) == PortDocument(v)
  {
    assert ["Port"][1..] == [];
  }

  /** Sub at "Port" in a document whose port is 1234. */
  method SubPort(tryParseDouble: DoubleParser, value: string) returns (outcome: SubOutcome, document: Option<Token>)
    ensures outcome == Substituted
    ensures document == Some(PortDocument(ConvertSimpleTypes(Integer(1234), value, tryParseDouble)))
  {
    var subber := new Subber(tryParseDouble);
    subber.ReadDocument(Parsed(PortDocument(Integer(1234))));
    LetterPath("Port");
    PortPath(Integer(1234), ConvertSimpleTypes(Integer(1234), value, tryParseDouble));
    outcome := subber.Sub("Port", value);
    document := subber.document;
  }

  /** The Port scenarios end to end through Sub. */
  method PortScenarios(tryParseDouble: DoubleParser) returns (typed: Option<Token>, fallback: Option<Token>)
    ensures typed == Some(PortDocument(Integer(5678)))
    ensures fallback == Some(PortDocument(String("abc")))
  {
    PortTakesInteger(tryParseDouble);
    PortFallsBackToString(tryParseDouble);
    var _, first := SubPort(tryParseDouble, "5678");
    var _, second := SubPort(tryParseDouble, "abc");
    typed, fallback := first, second;
  }
}

=== FILE: varsub.dfy ===
/**
 * The substitution engine (DotNet.VarSub.Core.Subber): a document store with
 * a loaded flag, and Sub, which finds the node at a dotted path and replaces it
 * with the new text, typed after the node it replaces.
 */
module VarSub {
  import opened Options
  import opened Parsers
  import opened Json
  import Dates
  import JsonPath

  /**
   * double.TryParse under the current culture. Floating-point parsing is not
   * modelled; the caller supplies it, and the model only passes its answer on.
   */
  type DoubleParser = string -> Option<bv64>

  /** The outcome of ReadDocument's call to JObject.Parse: a tree, or the parser's error. */
  datatype ParseResult = Parsed(root: Token) | ParseError(message: string)

  /** How Sub ends: the node was replaced, nothing was found (a warning), or it threw. */
  datatype SubOutcome = Substituted | PathNotFound | InvalidOperation(message: string)

  const NotLoadedMessage := "No document loaded.  Cannot sub a blank document."

  /**
   * The replacement for token: the new text parsed with the parser of token's
   * own type only; if that parser declines, or the type has none, a string
   * node holding the text verbatim.
   */
  function ConvertSimpleTypes(token: Token, newValue: string, tryParseDouble: DoubleParser): (r: Token)
    ensures IsValue(r)
    ensures r.String? || TypeOf(r) == TypeOf(token)
    ensures r.String? ==> r.text == newValue
  {
    match token
    case Integer(_) =>
      (match ParseInt32(newValue)
       case Some(n) => Integer(n)
       case None => String(newValue))
    case Float(_) =>
      (match tryParseDouble(newValue)
       case Some(bits) => Float(bits)
       case None => String(newValue))
    case Boolean(_) =>
      (match ParseBoolean(newValue)
       case Some(b) => Boolean(b)
       case None => String(newValue))
    case Date(_) =>
      (match Dates.ParseDateTime(newValue)
       case Some(d) => Date(d)
       case None => String(newValue))
    case _ => String(newValue)
  }

  // ---------------------------------------------------------------------------
  // The coercion table
  // ---------------------------------------------------------------------------

  /** Only the old node's type matters, never its value. */
  lemma ConvertDependsOnlyOnType(a: Token, b: Token, newValue: string, tryParseDouble: DoubleParser)
    requires TypeOf(a) == TypeOf(b)
    ensures ConvertSimpleTypes(a, newValue, tryParseDouble) == ConvertSimpleTypes(b, newValue, tryParseDouble)
  {
    match a
    case Integer(_) => assert b.Integer?;
    case Float(_) => assert b.Float?;
    case Boolean(_) => assert b.Boolean?;
    case Date(_) => assert b.Date?;
    case _ => assert !b.Integer? && !b.Float? && !b.Boolean? && !b.Date?;
  }

  /** Converting again with the same text changes nothing: the result's type leads to the same parser or to a string. */
  lemma ConvertIdempotent(token: Token, newValue: string, tryParseDouble: DoubleParser)
    ensures var r := ConvertSimpleTypes(token, newValue, tryParseDouble);
            ConvertSimpleTypes(r, newValue, tryParseDouble) == r
  {
  }

  /** An integer slot given a 32-bit number in decimal keeps an integer node with that number. */
  lemma IntegerStaysInteger(token: Token, n: int, tryParseDouble: DoubleParser)
    requires token.Integer? && Int32Min <= n <= Int32Max
    ensures ConvertSimpleTypes(token, FormatInt32(n), tryParseDouble) == Integer(n)
  {
    ParseFormatInt32(n);
  }

  /** An integer slot given padded, optionally signed digits that fit in 32 bits gets an integer node of their value. */
  lemma IntegerTakesPaddedText(token: Token, w1: string, sign: string, ds: string, w2: string, z: string, tryParseDouble: DoubleParser)
    requires token.Integer?
    requires AllNumberWhite(w1) && AllNumberWhite(w2) && AllNul(z)
    requires sign == "" || sign == "+" || sign == "-"
    requires ds != [] && AllDigits(ds)
    requires Int32Min <= (if sign == "-" then -(DigitsValue(ds) as int) else DigitsValue(ds)) <= Int32Max
    ensures ConvertSimpleTypes(token, w1 + sign + ds + w2 + z, tryParseDouble)
            == Integer(if sign == "-" then -(DigitsValue(ds) as int) else DigitsValue(ds))
  {
    var text := w1 + sign + ds + w2 + z;
    ParsePadded(w1, sign, ds, w2, z);
    Int32OfInRange(sign == "-", ds);
    IntegerTakesParsed(token, text, tryParseDouble);
  }

  lemma IntegerTakesParsed(token: Token, newValue: string, tryParseDouble: DoubleParser)
    requires token.Integer? && ParseInt32(newValue).Some?
    ensures ConvertSimpleTypes(token, newValue, tryParseDouble) == Integer(ParseInt32(newValue).value)
  {
  }

  /** An integer slot given text with any character besides digits, signs, white space and NUL gets a string node. */
  lemma IntegerFallsBackToString(token: Token, newValue: string, i: nat, tryParseDouble: DoubleParser)
    requires token.Integer? && i < |newValue| && !IsIntegerTextChar(newValue[i])
    ensures ConvertSimpleTypes(token, newValue, tryParseDouble) == String(newValue)
  {
    if ParseInt32(newValue).Some? {
      ParseInt32Alphabet(newValue);
    }
  }

  /** An integer slot given a number outside 32 bits gets a string node, not a float. */
  lemma IntegerOutOfRange(token: Token, newValue: string, tryParseDouble: DoubleParser)
    requires token.Integer? && newValue != [] && AllDigits(newValue) && DigitsValue(newValue) > Int32Max
    ensures ConvertSimpleTypes(token, newValue, tryParseDouble) == String(newValue)
  {
    ParseInt32RejectsLarge(newValue);
  }

  /** A boolean slot given "true" or "false" in any letter case, padded or not, keeps a boolean node. */
  lemma BooleanStaysBoolean(token: Token, before: string, word: string, after: string, b: bool, tryParseDouble: DoubleParser)
    requires token.Boolean?
    requires AllTrimmable(before) && AllTrimmable(after) && EqualsIgnoreCase(word, FormatBoolean(b))
    ensures ConvertSimpleTypes(token, before + word + after, tryParseDouble) == Boolean(b)
  {
    ParseBooleanIgnoresPadding(before, word, after, b);
  }

  /** A boolean slot given anything but the two words gets a string node. */
  lemma BooleanFallsBackToString(token: Token, newValue: string, tryParseDouble: DoubleParser)
    requires token.Boolean?
    requires !EqualsIgnoreCase(Trim(newValue), "True") && !EqualsIgnoreCase(Trim(newValue), "False")
    ensures ConvertSimpleTypes(token, newValue, tryParseDouble) == String(newValue)
  {
  }

  /** A date slot given text that some pattern of the table accepts holds the date the first such pattern reads. */
  /** A float slot takes whatever the injected double.TryParse gives: its value when it succeeds, the raw text otherwise. */
  lemma FloatFollowsParser(token: Token, newValue: string, tryParseDouble: DoubleParser)
    requires token.Float?
    ensures ConvertSimpleTypes(token, newValue, tryParseDouble)
            == match tryParseDouble(newValue)
               case Some(bits) => Float(bits)
               case None => String(newValue)
  {
  }

  lemma DateTakesParsed(token: Token, newValue: string, tryParseDouble: DoubleParser)
    requires token.Date? && Dates.ParseDateTime(newValue).Some?
    ensures ConvertSimpleTypes(token, newValue, tryParseDouble) == Date(Dates.ParseDateTime(newValue).value)
  {
  }

  /** A date slot given a value printed with any pattern of the table keeps a date node. */
  lemma DateStaysDate(token: Token, k: nat, d: Dates.DateTime, tryParseDouble: DoubleParser)
    requires token.Date? && k < |Dates.Formats|
    requires Dates.ValidDateTime(d) && Dates.Representable(Dates.PrecisionAt(k), Dates.ZoneAt(k), d)
    ensures Dates.Tokenize(Dates.Formats[k]).Some?
    ensures ConvertSimpleTypes(token, Dates.FormatExact(Dates.Formats[k], d), tryParseDouble).Date?
  {
    Dates.FormatsRoundTrip(k, d);
    DateTakesParsed(token, Dates.FormatExact(Dates.Formats[k], d), tryParseDouble);
  }

  /** A date slot given "yyyy-MM-ddTHH:mm:ss±hh:mm" text gets a date node with exactly those fields. */
  lemma DateExtendedOffset(token: Token, d: Dates.DateTime, tryParseDouble: DoubleParser)
    requires token.Date? && Dates.ValidDateTime(d) && d.zone.Offset?
    ensures Dates.Tokenize(Dates.Formats[3]).Some?
    ensures ConvertSimpleTypes(token, Dates.FormatExact(Dates.Formats[3], d), tryParseDouble) == Date(d)
  {
    Dates.ParseDateTimeExtendedOffset(d);
    DateTakesParsed(token, Dates.FormatExact(Dates.Formats[3], d), tryParseDouble);
  }

  /** A date slot given text that no pattern of the table accepts gets a string node. */
  lemma DateFallsBackToString(token: Token, newValue: string, tryParseDouble: DoubleParser)
    requires token.Date?
    requires forall k :: 0 <= k < |Dates.Formats| ==> Dates.ParseExact(Dates.Formats[k], newValue).None?
    ensures ConvertSimpleTypes(token, newValue, tryParseDouble) == String(newValue)
  {
  }

  /** Strings, nulls, objects and arrays are always replaced by the text verbatim. */
  lemma OtherTypesTakeTextVerbatim(token: Token, newValue: string, tryParseDouble: DoubleParser)
    requires token.String? || token.Null? || token.Object? || token.Array?
    ensures ConvertSimpleTypes(token, newValue, tryParseDouble) == String(newValue)
  {
  }

  // ---------------------------------------------------------------------------
  // The document store
  // ---------------------------------------------------------------------------

  class Subber {
    /** IsLoaded: set once a document has been parsed. */
    var IsLoaded: bool
    /** _jsonDocument: the loaded root object; None until a load succeeds. */
    var document: Option<Token>
    /** The culture's double parser, used for Float slots. */
    const tryParseDouble: DoubleParser

    ghost predicate Valid()
      reads this
    {
      (IsLoaded <==> document.Some?)
      && (document.Some? ==> document.value.Object? && WellFormed(document.value))
    }

    constructor (tryParseDouble: DoubleParser)
      ensures Valid() && !IsLoaded && document == None
      ensures this.tryParseDouble == tryParseDouble
    {
      this.tryParseDouble := tryParseDouble;
      IsLoaded := false;
      document := None;
    }

    /**
     * ReadDocument after the stream has been read and handed to JObject.Parse:
     * a root object becomes the document and sets IsLoaded; a syntax error,
     * or a root that is not an object, is logged and changes nothing.
     */
    method ReadDocument(parsed: ParseResult)
      requires Valid()
      requires parsed.Parsed? ==> WellFormed(parsed.root)
      modifies this
      ensures Valid()
      ensures parsed.Parsed? && parsed.root.Object? ==> IsLoaded && document == Some(parsed.root)
      ensures !(parsed.Parsed? && parsed.root.Object?) ==> IsLoaded == old(IsLoaded) && document == old(document)
    {
      if parsed.Parsed? && parsed.root.Object? {
        document := Some(parsed.root);
        IsLoaded := true;
      }
    }

    /**
     * Sub: throws when nothing is loaded; otherwise looks up the dotted path
     * and, if it finds a node, replaces it with ConvertSimpleTypes of it; if it
     * finds nothing, warns and leaves the document as it is.
     */
    method Sub(variablePath: string, value: string) returns (outcome: SubOutcome)
      requires Valid()
      requires JsonPath.IsDottedPath(variablePath)
      modifies this`document
      ensures Valid()
      ensures !IsLoaded ==> outcome == InvalidOperation(NotLoadedMessage) && document == old(document)
      ensures IsLoaded && Lookup(old(document).value, JsonPath.Segments(variablePath)).None? ==>
                outcome == PathNotFound && document == old(document)
      ensures IsLoaded && Lookup(old(document).value, JsonPath.Segments(variablePath)).Some? ==>
                outcome == Substituted
                && document == Some(ReplaceAt(old(document).value, JsonPath.Segments(variablePath),
                     ConvertSimpleTypes(Lookup(old(document).value, JsonPath.Segments(variablePath)).value, value, tryParseDouble)))
      ensures outcome == Substituted ==>
                Lookup(document.value, JsonPath.Segments(variablePath)) ==
                  Some(ConvertSimpleTypes(Lookup(old(document).value, JsonPath.Segments(variablePath)).value, value, tryParseDouble))
      ensures outcome == Substituted ==>
                forall q :: Diverge(JsonPath.Segments(variablePath), q) ==>
                  Lookup(document.value, q) == Lookup(old(document).value, q)
    {
      if !IsLoaded {
        return InvalidOperation(NotLoadedMessage);
      }
      var segments := JsonPath.Segments(variablePath);
      var root := document.value;
      var token := Lookup(root, segments);
      if token.None? {
        return PathNotFound;
      }
      var replacement := ConvertSimpleTypes(token.value, value, tryParseDouble);
      ReplaceAtWellFormed(root, segments, replacement);
      LookupReplaceAt(root, segments, replacement);
      forall q | Diverge(segments, q)
        ensures Lookup(ReplaceAt(root, segments, replacement), q) == Lookup(root, q)
      {
        LookupReplaceAtElsewhere(root, segments, replacement, q);
      }
      document := Some(ReplaceAt(root, segments, replacement));
      outcome := Substituted;
    }
  }
}
